=== FILE: README.md ===
# Daily planner: the record store, the day editors and the aggregates

This project is a Dafny model of the logic beneath the views of a single-user daily
planner. The planner keeps one record per calendar day. Each record holds:

- the day's tasks;
- 24 hourly notes;
- money entries;
- water intake against a goal;
- exercise hours and a meal plan;
- a 1–5 rating and a highlight.

The model covers three layers. Each is a set of pure functions over immutable
datatypes, with lemmas relating them.

- **The record store** (`Storage`, from the `useStorage` hook in its browser and mobile variants).
  - The key-value backend is a `map<string, Entry>`, where an entry either parses as a record (`Valid`) or is `Corrupt`.
  - The hook's state is `Hook(loading, current)`.
  - Operations: the default record, load with fallback, save under `day-YYYY-MM-DD`, the eight one-field updates, the mount effect and listing all records.
  - A failed backend write is a boolean parameter.
- **The per-day editors.**
  - `TodoList`: add, toggle and delete; the top-three split; the add control that appears only under a short list.
  - `MoneyTracker`: the entry form, add and delete, totals and balance.
  - `WaterTracker`: the clamped quarter-litre buttons, the progress percentage and the row of glasses.
  - `TimeTracker`: the 12-hour label, slot update and lookup, and the hours on screen.
- **The aggregates over many records.**
  - `Stats`: the daily, weekly and monthly selection; the completion rate; money, water and rating figures; the last-seven-days strip.
  - `History`: the month grid, the markers of each day cell and the balance of a selected day.

Supporting modules:

- `Wrappers` holds `Option`.
- `Sequences` holds an order-preserving `Filter`, standing for JavaScript's `Array.prototype.filter`, with its lemmas, and `FirstWhere`, standing for `Array.prototype.find`.
- `Planner` holds the record datatypes of `src/types/planner.ts`:
  - `TodoItem` has an id, text, completed flag and priority.
  - `TimeSlot` is an hour and an activity.
  - `MoneyKind` is exactly `Expense | Income`.
  - `MealPlan` has four text fields.
  - `DayData` has its eleven fields.
- `Calendar` holds day-number arithmetic:
  - the Gregorian calendar;
  - the weekday;
  - decimal text, `padStart` and `toISOString` text.

Modelling choices:

- **Dates** are integer day numbers counted from 1970-01-01, and `now` is an integer count of milliseconds.
  - A record's `date` text is `Calendar.Iso(date)`.
  - The lookups of a record by its date text (`find(d => d.date === text)`) are modelled on those texts. The daily filter, which compares local `toDateString` texts, is modelled as day-number equality; see "## Left out".
- **Amounts, litres and percentages** are exact `real`s.
- **Two-digit years:** the multi-argument `Date` constructor reads a year in 0..99 as 1900 + year. The month grid's length and first weekday follow that rule (`History.DateYear`). Its cell labels keep `${year}` as given.
- **Fresh ids**, which the program takes from `Date.now()`, are parameters. Freshness is a precondition only of the lemmas that need it.
- **Shared copies:** the mobile copies of the store, the task list and the hourly notes repeat the browser logic. One definition serves both, and the table cites both.

Where the code and its written description disagree, the model follows the code:

- **Save** sets the current record whenever the write succeeds, whatever day it belongs to. It does not first check that the record's date is the current day's.
- **Listing all records** returns the empty list as soon as any single `day-` entry fails to parse. It does not skip that entry.
- **The weekly and monthly windows** compare a record's midnight with `now` minus 7 or 30 days. `now` carries the time of day, so the boundary day is included only when `now` is exactly midnight (`Stats.WindowBoundary`).
- **An empty stored string** is falsy in the program, so loading it gives the default record. The model treats it like any unparsable entry.

## Model

| member | source | states |
|---|---|---|
| Storage.DefaultDayData | src/hooks/useStorage.ts:5-25 | The default record of day d has date d and id `day-`+ISO(d). It has 24 slots, slot h being hour h with an empty note. Tasks and money are empty, water is 0 of a goal of 8, exercise and rating are 0, and the highlight and the four meals are empty. It is well-formed. The mobile copy at hooks/useStorage.ts:6-26 is the same. |
| Storage.Load | src/hooks/useStorage.ts:36-47 | Load returns the stored record when the day's key holds a parsable entry. It returns the default record when the key is missing or its entry is corrupt, and never fails. Over a consistent backend the result is well-formed and belongs to the requested day. The mobile copy at hooks/useStorage.ts:37-48 is the same. |
| Storage.Save | src/hooks/useStorage.ts:49-56 | A successful save writes the record under its own day key and makes it current. Loading that day then returns it. Every other key, and the load of every other day, is unchanged. A failed write changes neither the backend nor the hook. The mobile copy at hooks/useStorage.ts:50-57 is the same. |
| Storage.SaveKeepsConsistent | src/hooks/useStorage.ts:51 | Saving a well-formed record preserves "every day key holds the record of the day it names". |
| Storage.WithField | src/hooks/useStorage.ts:58-61 | The spread `{ ...current, field }` sets exactly the named field and keeps the other ten. |
| Storage.ChangesOnlyIsWithField | src/hooks/useStorage.ts:58-104 | The "only this field changed" relation admits exactly one record, the one the spread builds. |
| Storage.Update | src/hooks/useStorage.ts:58-104 | An update does nothing without a current record, and nothing when the write fails. Otherwise the new current record differs from the old one in the updated field only, is what loading its day returns, and the loading flag is kept. Every other key of the backend keeps its entry, or stays absent. The mobile copy at hooks/useStorage.ts:59-105 is the same. |
| Storage.Init | src/hooks/useStorage.ts:119-128 | The mount effect leaves the backend alone, stops loading and makes current the record that loading today returns. Under a consistent store, that record sits under today's key. |
| Storage.UpdateWhileLoading | src/hooks/useStorage.ts:28-29 | In the initial state (loading, no current record) every update is a no-op. |
| Storage.InitSessionOk | src/hooks/useStorage.ts:119-128 | After the mount effect over a consistent backend, the session invariant holds: the backend is consistent and the current record is well-formed and is what loading its day returns. |
| Storage.UpdateKeepsSessionOk | src/hooks/useStorage.ts:58-104 | Updates whose values keep records well-formed preserve the session invariant. This covers the ratings 1–5 the rating buttons pass. |
| Storage.RunPersistsEdits | src/hooks/useStorage.ts:58-104 | After any sequence of updates, the current record is the original with the successfully written field changes applied in order, and loading its day returns exactly that. |
| Storage.RunKeepsSessionOk | src/hooks/useStorage.ts:58-104 | The session invariant survives any sequence of well-formedness-keeping updates. |
| Storage.ParseAll | src/hooks/useStorage.ts:109 | Parsing the listed keys fails exactly when one of their entries is corrupt. Otherwise it yields one record per key, in key order. |
| Storage.SortByDateDesc | src/hooks/useStorage.ts:109-111 | The sort returns a permutation of its input, latest day first. |
| Storage.InsertByDate | src/hooks/useStorage.ts:109-111 | One insertion step of the sort: the result holds the old records plus the new one, as a multiset. |
| Storage.InsertKeepsSorted | src/hooks/useStorage.ts:109-111 | Inserting into a date-descending list keeps it date-descending, and the new head is the inserted record or the old head. |
| Storage.DayKeyCount | src/hooks/useStorage.ts:108 | When every key is listed once, filtering on the `day-` prefix keeps as many keys as the store has day keys. |
| Storage.DayKeyPosition | src/hooks/useStorage.ts:108 | Every `day-` key of the store appears among the filtered keys. |
| Storage.ParsedDayRecords | src/hooks/useStorage.ts:107-116 | A successful parse of the `day-` keys means no day entry is corrupt, gives one record per day key, and holds exactly the stored day records. |
| Storage.GetAllDayData | src/hooks/useStorage.ts:106-117 | If any `day-` entry is corrupt the result is empty. Otherwise it is sorted latest first, has one record per `day-` key, and holds exactly the records stored under `day-` keys. The mobile copy at hooks/useStorage.ts:107-119 is the same. |
| Planner.FirstWithDate | src/components/HistoryPage.tsx:45 | `find` by date text gives none exactly when no record has that text. Otherwise it gives a record with that text before which no record has it. |
| TodoList.Trim | src/components/TodoSection.tsx:18-21 | `trim` returns the part of the text between blank leading and trailing runs. It neither starts nor ends with white space, and it is empty exactly when the text is blank. |
| TodoList.AddTodo | src/components/TodoSection.tsx:17-29 | Blank text leaves the list unchanged, and only blank text does. Otherwise exactly one task is appended, with the trimmed text, not completed, and priority one more than the old length. The earlier tasks are kept. The mobile copy at components/TodoSection.tsx:18-30 is the same. |
| TodoList.ToggleTodo | src/components/TodoSection.tsx:31-36 | Toggle flips `completed` exactly on the tasks with the id, and keeps length, order, ids, texts and priorities. The mobile copy at components/TodoSection.tsx:32-37 is the same. |
| TodoList.ToggleTwice | src/components/TodoSection.tsx:32-34 | Toggling an id twice restores the list. |
| TodoList.ToggleAbsent | src/components/TodoSection.tsx:32-34 | Toggling an id no task has changes nothing. |
| TodoList.DeleteTodo | src/components/TodoSection.tsx:38-41 | Delete keeps exactly the tasks with another id, as an order-preserving subsequence with nothing renumbered. Every copy of a kept task survives: each task has its input number of copies when its id differs and none otherwise. An absent id changes nothing. The mobile copy at components/TodoSection.tsx:39-42 is the same. |
| TodoList.DeleteUndoesAdd | src/components/TodoSection.tsx:17-41 | Deleting the task just added under a fresh id restores the list. |
| TodoList.AddKeepsUniqueIds | src/components/TodoSection.tsx:19-25 | Adding under a fresh id keeps the ids pairwise different. |
| TodoList.TopTodos | src/components/TodoSection.tsx:14 | The top list is the first min(3, n) tasks. |
| TodoList.TopAndRemainingSplit | src/components/TodoSection.tsx:14-15 | The top list followed by the rest is the whole list. The rest is non-empty only behind a full top three. |
| TodoList.AddOfferedIffFewerThanThree | src/components/TodoSection.tsx:112 | The add control is shown exactly while the whole list has fewer than three tasks. The mobile copy at components/TodoSection.tsx:70 is the same. |
| TodoList.StepsKeepAtMostThree | src/components/TodoSection.tsx:112 | Through the controls, from at most three tasks, the list never holds more than three and every priority stays in 1..3. |
| TodoList.CompletedCount | src/components/HistoryPage.tsx:74 | The completed count is at most the length. It is 0 exactly when no task is done, and the length exactly when every task is. |
| TodoList.CompletedCountConcat | src/components/HistoryPage.tsx:74 | The count of two lists together is the sum of their counts. With the extremes above, this fixes the count as the number of completed tasks. |
| TodoList.CompletedCountExample | src/components/HistoryPage.tsx:74 | Two done tasks and one open task count 2. |
| MoneyTracker.CategoriesAreNineDistinct | src/components/MoneyTracker.tsx:10-13 | There are nine different categories, and the form's default "Food" is the first. |
| MoneyTracker.AddEntry | src/components/MoneyTracker.tsx:27-41 | With an empty amount or description nothing changes, and only then. Otherwise one entry with the form's kind, category and description, the given id and the read amount is appended, earlier entries are kept, and the form is reset: closed, empty, expense, "Food". |
| MoneyTracker.DeleteEntry | src/components/MoneyTracker.tsx:43-45 | Delete keeps exactly the entries with another id, in order, with every copy of a kept entry: it has its input number of copies when its id differs and none otherwise. An absent id changes nothing. |
| MoneyTracker.DeleteUndoesAddEntry | src/components/MoneyTracker.tsx:27-45 | Deleting the entry just added under a fresh id restores the list. |
| MoneyTracker.Displayed | src/components/MoneyTracker.tsx:298 | The list is shown newest first: position i shows entry n-1-i. |
| MoneyTracker.AddedShownFirst | src/components/MoneyTracker.tsx:298 | A new entry is shown on top of the entries shown before. |
| MoneyTracker.SumAmounts | src/components/MoneyTracker.tsx:49 | The left fold of the amounts is not negative when no amount is. |
| MoneyTracker.SumConcat | src/components/MoneyTracker.tsx:49 | The sum over a concatenation is the sum of the two sums. |
| MoneyTracker.TotalOf | src/components/MoneyTracker.tsx:47-53 | The total of a kind is 0 when no entry has that kind, and not negative when no amount is. |
| MoneyTracker.TotalOfConcat | src/components/MoneyTracker.tsx:47-53 | The total of a kind over two lists is the sum of their totals. |
| MoneyTracker.AddEntryTotals | src/components/MoneyTracker.tsx:37-55 | Adding an income of a raises the income total by a and keeps the expense total, and an expense does the reverse. The balance moves by +a or -a. |
| MoneyTracker.TotalsPartitionSum | src/components/MoneyTracker.tsx:47-55 | The income and expense totals together are the sum of all amounts. |
| WaterTracker.AdjustWater | src/components/WaterTracker.tsx:17-20 | The new intake is intake + delta when that is not negative, and 0 otherwise. It is never negative. |
| WaterTracker.Delta | src/components/WaterTracker.tsx:75 | The buttons only ever pass -0.25 or +0.25, and "+" is the positive one. |
| WaterTracker.MoreThenLessRestores | src/components/WaterTracker.tsx:18 | From any intake not below 0, "+" then "-" restores it. |
| WaterTracker.LessAtZero | src/components/WaterTracker.tsx:18 | At 0, "-" leaves 0, so "-" then "+" gives a quarter litre. |
| WaterTracker.PressAllKeepsGrid | src/components/WaterTracker.tsx:17-20 | From a non-negative whole number of quarter litres, any series of presses stays non-negative and on the quarter grid. |
| WaterTracker.Percentage | src/components/WaterTracker.tsx:15 | For a positive goal, the percentage is at most 100 and not negative for a non-negative intake. It is 100 exactly when the goal is reached, and below that it is intake/goal·100. |
| WaterTracker.GoalAchievedIffReached | src/components/WaterTracker.tsx:163-166 | The goal message shows exactly when the intake reaches the goal. |
| WaterTracker.GlassCount | src/components/WaterTracker.tsx:136 | A positive goal gives ceil(goal·4) glasses, at least one. |
| WaterTracker.Glasses | src/components/WaterTracker.tsx:136-143 | There are ceil(goal·4) glasses, and glass i is full exactly when i < intake·4. |
| WaterTracker.FullGlassesArePrefix | src/components/WaterTracker.tsx:143 | The full glasses come before the empty ones. |
| WaterTracker.AllFullIffGoalOnGrid | src/components/WaterTracker.tsx:136-166 | With intake and goal on the quarter grid, every glass is full exactly when the goal is reached. |
| WaterTracker.AllFullBelowGoalOffGrid | src/components/WaterTracker.tsx:136-166 | Off the grid, 7.8 litres against a goal of 8 fill every glass while the goal message stays off. |
| TimeTracker.DisplayHour | src/components/TimeTracker.tsx:14 | For hours 0..23 the clock hour lies in 1..12 and agrees with the hour modulo 12. |
| TimeTracker.FormatHour | src/components/TimeTracker.tsx:12-16 | For hours 0..23 the label is two digits reading as the clock hour, then ":00 ", then "PM" exactly from noon on and "AM" exactly before noon. The mobile copy at components/TimeTracker.tsx:13-17 is the same. |
| TimeTracker.FormatHourExamples | src/components/TimeTracker.tsx:12-16 | The labels of 0, 12, 13 and 9 are "12:00 AM", "12:00 PM", "01:00 PM" and "09:00 AM". |
| TimeTracker.LabelRoundTrip | src/components/TimeTracker.tsx:12-16 | Reading a label back gives its hour, so the 24 labels are all different. |
| TimeTracker.UpdateActivity | src/components/TimeTracker.tsx:18-23 | Only slots with the hour get the new note. Length, order, every slot's hour and all other slots are kept. The mobile copy at components/TimeTracker.tsx:19-24 is the same. |
| TimeTracker.UpdateKeepsFullDay | src/components/TimeTracker.tsx:18-23 | Updating keeps the 24 hourly slots of a record. |
| TimeTracker.UpdateAbsentIdentity | src/components/TimeTracker.tsx:19-21 | Updating an hour no slot has is the identity. |
| TimeTracker.SlotForHour | src/components/TimeTracker.tsx:25-27 | Lookup returns the first slot with the hour, or an empty note for that hour when there is none. The mobile copy at components/TimeTracker.tsx:26-28 is the same. |
| TimeTracker.LookupAfterUpdate | src/components/TimeTracker.tsx:18-27 | After an update, looking up that hour gives the new note, and every other hour gives what it gave before. |
| TimeTracker.KeyHoursAreSixToTwentyTwo | src/components/TimeTracker.tsx:30 | The hours on screen are 6..22, each once, in order. The mobile copy at components/TimeTracker.tsx:31 is the same. |
| TimeTracker.Rows | src/components/TimeTracker.tsx:54-73 | One row per listed hour, with that hour's label. The row's slot is `SlotForHour` of that hour: the first slot with the hour, or an empty note for it. |
| TimeTracker.NightHoursUntouched | src/components/TimeTracker.tsx:30 | Edits made through the view never change the notes of hours 0..5 and 23. |
| Stats.Today | src/components/StatsPage.tsx:26 | The day of `now` is the day whose 24 hours contain it. |
| Stats.FilteredDays | src/components/StatsPage.tsx:19-39 | The selection holds exactly the records in the period, as an order-preserving subsequence, each with its input number of copies. |
| Stats.WindowBoundary | src/components/StatsPage.tsx:27-32 | A record is in the weekly (monthly) window exactly when its day is at least today-7 (today-30), plus one unless `now` is exactly midnight. There is no upper bound. |
| Stats.PeriodsNest | src/components/StatsPage.tsx:25-32 | Today's record is in the weekly window, and the weekly window lies inside the monthly one. |
| Stats.FilteredDaysNest | src/components/StatsPage.tsx:19-39 | Selecting the week out of the month's selection gives the week's selection, and likewise today out of the week. |
| Stats.WeeklyBoundaryExample | src/components/StatsPage.tsx:27-29 | At noon on 2024-01-15 the weekly window excludes 2024-01-08 and keeps 2024-01-09. At midnight it keeps 2024-01-08. |
| Stats.CompletedTasks | src/components/StatsPage.tsx:62-63 | The completed count never exceeds the task count, and equals it exactly when every task of every day is done. |
| Stats.TaskCountsAreFlatCounts | src/components/StatsPage.tsx:61-63 | The per-day sums are counts over all tasks of the selection: the total is their number, and the completed count is how many of them are done. |
| Stats.Share | src/components/StatsPage.tsx:64 | The rate is 0 without tasks. Otherwise rate·total = done·100, so it lies in [0, 100] and is 100 exactly when all are done. |
| Stats.CompletionRate | src/components/StatsPage.tsx:61-64 | The completion rate is the completed tasks out of all tasks, in percent: rate·total = completed·100, and 0 without tasks. It lies in [0, 100] and, with tasks, is 100 exactly when every task is done. |
| Stats.SumOverDaysIsTotal | src/components/StatsPage.tsx:66-74 | Adding up the per-day totals of a kind is totalling that kind over all entries of all days. |
| Stats.NetIsBalance | src/components/StatsPage.tsx:221-225 | The net figure, earned minus spent, is the money tracker's balance over all entries of the selection. |
| Stats.Mean | src/components/StatsPage.tsx:76-82 | The guarded quotient of both averages: 0 for no values, otherwise mean·count = total. |
| Stats.AvgWater | src/components/StatsPage.tsx:76-77 | The average is 0 with no days. Otherwise average·count equals the summed intake. |
| Stats.AvgWaterBounds | src/components/StatsPage.tsx:76-77 | If every intake lies in [0, hi], so does the average. |
| Stats.MeanRating | src/components/StatsPage.tsx:80-82 | The mean rating of a list of days: mean·count = the rating sum, and 0 for no days. |
| Stats.AvgRating | src/components/StatsPage.tsx:79-82 | The mean over the rated days only: average·(number of rated days) = their rating sum. With no rated day the average is 0. |
| Stats.UnratedDaysIgnored | src/components/StatsPage.tsx:79-82 | The average over all days equals the average over the rated days alone. |
| Stats.AppendUnratedKeepsAverage | src/components/StatsPage.tsx:79-82 | An unrated day never changes the average. |
| Stats.AvgRatingBounds | src/components/StatsPage.tsx:79-82 | With ratings on the 0..5 scale the average is 0 or lies in [1, 5]. |
| Stats.AvgRatingExample | src/components/StatsPage.tsx:79-82 | Ratings 0, 3, 0, 5 average 4. |
| Stats.Last7Days | src/components/StatsPage.tsx:43-56 | Seven days today-6..today, oldest first. Each shows its ISO text and the first record with that text, or none. |
| Stats.Last7DaysConsecutive | src/components/StatsPage.tsx:45-47 | The strip runs over consecutive days and ends today. |
| Stats.StripCell | src/components/StatsPage.tsx:48-53 | The entry of day n has day n, its ISO text and the first record with that text. |
| Stats.Last7DaysData | src/components/StatsPage.tsx:49 | A strip day shows a record of its own date, and shows none only when no record has that date. |
| Stats.StripFigures | src/components/StatsPage.tsx:310-312 | A day's figures are all zero without a record. With one: completed is the record's completed-task count (≤ total), total is the task count, and the water mark is set exactly when intake ≥ goal. |
| Calendar.DigitsFacts | src/components/HistoryPage.tsx:44 | `String(n)` of a non-negative number is a non-empty run of digits with no leading zero. |
| Calendar.PadStartFacts | src/components/HistoryPage.tsx:44 | `padStart` leaves a text of at least the width alone. Otherwise it fills the text up to exactly the width with the pad character in front. |
| Calendar.PadTwoDigits | src/components/HistoryPage.tsx:44 | For 0..99 the padded text is the tens digit followed by the units digit. |
| Calendar.ParseDigitsOfDigits | src/components/HistoryPage.tsx:44 | Reading back a number's decimal text gives the number. |
| Calendar.PadTwoRoundTrip | src/components/HistoryPage.tsx:44 | For 0..99 the padded text is two digits reading back as the number. |
| Calendar.DaysInMonth | src/components/HistoryPage.tsx:31-32 | Every month has 28 to 31 days. |
| Calendar.NextMonth | src/components/HistoryPage.tsx:31 | `month + 1` rolls December over into January of the next year, so the result is again a month 1..12. |
| Calendar.YearBaseClosed | src/components/HistoryPage.tsx:30-31 | The era-based day count equals 365 days a year plus one per leap year, counted by the divisions by 4, 100 and 400. |
| Calendar.YearBaseStep | src/components/HistoryPage.tsx:30-31 | A year from March to March has 365 days, or 366 when the next calendar year is a leap year. |
| Calendar.MonthLengthMatchesCalendar | src/components/HistoryPage.tsx:31-32 | Day 0 of the next month is the last of this month: the first of the next month is DaysInMonth days after the first of this one. |
| Calendar.Weekday | src/components/HistoryPage.tsx:33 | The weekday lies in 0..6 and is 0 (Sunday) exactly on days 3 mod 7 from 1970-01-01. |
| Calendar.LabelMatchesIso | src/components/HistoryPage.tsx:44 | For four-digit years the calendar cell's label is the ISO text of the same date. |
| Calendar.DaysFromCivilExample | src/components/HistoryPage.tsx:30-33 | 2024-01-15 is day 19737, and 2024-01-01 was a Monday. |
| Calendar.CivilFromDaysExample | src/components/StatsPage.tsx:48 | Day 19737 is 2024-01-15. |
| Calendar.YearIsoExample | src/components/StatsPage.tsx:48 | The year 2024 is written "2024". |
| Calendar.IsoExample | src/components/StatsPage.tsx:48 | The ISO text of day 19737 is "2024-01-15". |
| History.StartingDayOfWeek | src/components/HistoryPage.tsx:30-33 | The number of leading blanks is the weekday of the first of the month, in 0..6. |
| History.MonthLength | src/components/HistoryPage.tsx:31-32 | The month length is the Gregorian one of the year the `Date` constructor uses, where a year in 0..99 stands for 1900 + year. February has 29 days exactly in that year's leap years. |
| History.YearZeroFebruary | src/components/HistoryPage.tsx:31-32 | February of year 0 gets 28 days, those of 1900, though year 0 itself is a leap year. |
| History.TwoDigitYearWeekday | src/components/HistoryPage.tsx:30-33 | A month of a year in 0..99 opens on the weekday of the same month of 1900 + year. |
| History.PadCells | src/components/HistoryPage.tsx:37-40 | `start` null cells come first; after them the items follow in order. |
| History.DayCell | src/components/HistoryPage.tsx:44-50 | The cell of day d has day number d, the `YYYY-MM-DD` label of that day and the first record with that label. |
| History.MonthDays | src/components/HistoryPage.tsx:42-51 | The loop over days 1..n yields n cells, and cell k is the cell of day k + 1. |
| History.GridOf | src/components/HistoryPage.tsx:35-53 | `start` blanks followed by the cells of days 1..n: cell i is empty exactly when i < start, and otherwise it is the cell of day i - start + 1. |
| History.MonthGrid | src/components/HistoryPage.tsx:27-54 | The grid has startingDayOfWeek + daysInMonth cells, the length taken in the constructor's year, and a cell is empty exactly before the first of the month. Cell i after the blanks is the cell of day i - startingDayOfWeek + 1. |
| History.DateLabelsAscend | src/components/HistoryPage.tsx:43-44 | Within a month the labels of later days are strictly greater as text. |
| History.GridColumnIsWeekday | src/components/HistoryPage.tsx:38-43 | With seven columns, each day cell sits in the column of its weekday in the constructor's year. |
| History.GridCellData | src/components/HistoryPage.tsx:43-50 | Cell i after the blanks is day i - startingDayOfWeek + 1 with that day's label. It holds a record of its own date, and holds none only when no record has that date. |
| History.GetDayIndicators | src/components/HistoryPage.tsx:71-85 | Without a record every marker is off and 0. With one: completed is the completed-task count (≤ total), total is the task count, water met exactly when intake ≥ goal, and the rating is copied. |
| History.TaskDotMeaning | src/components/HistoryPage.tsx:246-253 | There is no dot exactly without tasks. The dot is green exactly when all tasks are done, grey exactly when none is, and amber exactly when some are done and some are not. |
| History.DayBalanceIsBalance | src/components/HistoryPage.tsx:387-389 | The signed fold of the selected day's entries equals the money tracker's income minus expenses. |
| Sequences.FirstWhere | src/components/StatsPage.tsx:49 | `find` gives none exactly when no element passes. Otherwise it gives an element that passes and that no earlier element passes before. |
| Sequences.FilterCountSet | src/hooks/useStorage.ts:108 | Filtering a repetition-free list keeps as many elements as a set holding exactly the passing elements has. |
| Sequences.Filter | src/hooks/useStorage.ts:108 | The filter keeps exactly the elements satisfying the test, and is never longer than its input. |
| Sequences.FilterCount | src/hooks/useStorage.ts:108 | A filter keeps every copy of an element it keeps: a kept element has its input number of copies, a dropped one none. |
| Sequences.FilterConcat | src/components/MoneyTracker.tsx:47-53 | Filtering a concatenation concatenates the filtered parts. |
| Sequences.FilterIsSubsequence | src/components/StatsPage.tsx:21 | A filter's result is an order-preserving subsequence of its input. |
| Sequences.FilterKeepsAllIff | src/components/HistoryPage.tsx:74 | A filter keeps the whole list exactly when every element passes the test. |

## Left out

- The JSON text and the storage APIs are not modelled. `localStorage` and `AsyncStorage` become the entry map, and `JSON.parse`/`stringify` become "parsable or corrupt". A stored text that parses to something other than a day record, such as `null`, is not modelled.
- `await` in the mobile store adds no logic and is dropped. The stale-closure effects of the asynchronous React state updates are not modelled either: each update here sees the result of the previous one.
- Time zones are not modelled; the calendar is UTC throughout. The program keys records and builds the strip by the UTC date (`toISOString`). The history grid is built from date texts, so only the month it opens on depends on the local clock.
- Stats.FilteredDays: the daily period is UTC day equality. The program compares `toDateString` of the record's date, read as UTC midnight, with `toDateString` of now, and both are local dates. So in a zone h hours west of UTC the program finds today's record only in the last h hours of the local day (from 19:00 at UTC−5) and shows an empty daily view before that. In a zone h hours east of UTC it misses today's record for the first h hours. The model always selects today's record.
- `Calendar.CivilFromDays` is not proved to invert `Calendar.DaysFromCivil` in general. It is only checked on worked dates.
- `parseFloat` of the amount field, `toFixed` rounding and floating-point accumulation error are not modelled. Amounts and litres are exact reals, and the amount arrives already read.
- Ids and the creation moment of an entry come from `Date.now()` and are parameters. The freshness an inverse lemma needs is its precondition.
- `MoneyEntry.date` is an integer millisecond timestamp here. The program stores the ISO text of that moment, and only ever stores and shows it.
- The open/close toggles of the forms (`showAddInput`, `showAddForm`) and the editing state of the hourly notes are not modelled. Only the reset after a successful add is.
- `navigateMonth`, the "today" highlight, the selected-day panel, and the month name (`toLocaleDateString`) are left out: they are presentation or `Date` arithmetic with no model-level content.
- `App`, `Navigation`, `HighlightsSection` and the two `Header` files are left out. They hold tab switching, an edit buffer and date display. Their one relevant fact is that the rating buttons pass 1..5 (src/components/Header.tsx:118-121), and it enters as the precondition of `Storage.Update`.
- The stars display of the average rating and every other piece of styling are left out.
- Storage.GetAllDayData: requires the key list to enumerate the backend's keys once each, standing for `Object.keys` / `getAllKeys`. The order of records of the same day is not stated. The JavaScript sort order among equal dates is left open.
- WaterTracker.Percentage: requires a positive goal. A zero or negative goal, which yields `NaN` or `Infinity` in the program, is not modelled. No stored record has such a goal.
- Stats.AvgWaterBounds: requires `hi` to be non-negative, which the empty selection needs.
- TimeTracker.FormatHour: states the label's shape for hours 0..23 only, which are the only hours the view passes.

=== FILE: calendar.dfy ===
/**
 Calendar arithmetic that the planner takes from JavaScript's `Date`.

 A calendar day is an integer day number: days since 1970-01-01 in the
 proleptic Gregorian calendar (UTC). A moment in time is an integer number of
 milliseconds since 1970-01-01T00:00:00Z. The conversions between day numbers
 and (year, month, day) triples follow the "days from civil" algorithm; the
 string forms follow `Date.prototype.toISOString` and the template strings of
 the history page.
 */
module Calendar {

  /** Milliseconds in one day: 24 * 60 * 60 * 1000. */
  const MsPerDay: int := 86400000

  /** A calendar date; `month` is 1..12 and `day` is 1..31 for real dates. */
  datatype Civil = Civil(year: int, month: int, day: int)

  // ---------------------------------------------------------------------------
  // Decimal text
  // ---------------------------------------------------------------------------

  predicate IsDigit(c: char) {
    '0' <= c <= '9'
  }

  function DigitChar(d: nat): (c: char)
    requires d < 10
    ensures IsDigit(c)
  {
    ('0' as int + d) as char
  }

  function DigitValue(c: char): (d: nat)
    requires IsDigit(c)
    ensures d < 10
  {
    (c as int - '0' as int) as nat
  }

  lemma DigitValueOfDigitChar(d: nat)
    requires d < 10
    ensures DigitValue(DigitChar(d)) == d
  {
  }

  /** The value of a string of decimal digits, most significant digit first. */
  function ParseDigits(s: string): nat
    requires forall i :: 0 <= i < |s| ==> IsDigit(s[i])
    decreases |s|
  {
    if |s| == 0 then 0 else 10 * ParseDigits(s[..|s| - 1]) + DigitValue(s[|s| - 1])
  }

  /** `Number.prototype.toString()` of a non-negative integer: its decimal digits, no leading zeros. */
  function Digits(n: nat): (s: string)
    decreases n
  {
    if n < 10 then [DigitChar(n)] else Digits(n / 10) + [DigitChar(n % 10)]
  }

  /** The decimal text of `n` is a non-empty string of digits without a leading zero. */
  lemma {:induction false} DigitsFacts(n: nat)
    ensures 1 <= |Digits(n)|
    ensures forall i :: 0 <= i < |Digits(n)| ==> IsDigit(Digits(n)[i])
    ensures |Digits(n)| > 1 ==> Digits(n)[0] != '0'
    decreases n
  {
    if n >= 10 {
      DigitsFacts(n / 10);
      var s := Digits(n);
      assert s == Digits(n / 10) + [DigitChar(n % 10)];
      assert s[0] == Digits(n / 10)[0];
    }
  }

  /** Reading back the decimal text of `n` gives `n`. */
  lemma {:induction false} ParseDigitsOfDigits(n: nat)
    ensures var s := Digits(n);
            (forall i :: 0 <= i < |s| ==> IsDigit(s[i])) && ParseDigits(s) == n
    decreases n
  {
    DigitsFacts(n);
    var s := Digits(n);
    if n < 10 {
      DigitValueOfDigitChar(n);
    } else {
      ParseDigitsOfDigits(n / 10);
      assert s[..|s| - 1] == Digits(n / 10);
      DigitValueOfDigitChar(n % 10);
    }
  }

  /** A number of at least four digits is written with at least four characters. */
  lemma DigitsLengthAtLeastFour(n: nat)
    requires 1000 <= n
    ensures 4 <= |Digits(n)|
  {
    assert Digits(n) == Digits(n / 10) + [DigitChar(n % 10)];
    assert Digits(n / 10) == Digits(n / 100) + [DigitChar(n / 10 % 10)];
    assert Digits(n / 100) == Digits(n / 1000) + [DigitChar(n / 100 % 10)];
  }

  /** `String(x)` of an integer: a minus sign before the digits of a negative number. */
  function IntString(x: int): string {
    if x < 0 then "-" + Digits(-x) else Digits(x)
  }

  /** `n` copies of `c`. */
  function Repeat(c: char, n: nat): (s: string)
  {
    seq(n, _ => c)
  }

  /** `String.prototype.padStart(width, c)`: prefix copies of `c` up to `width` characters. */
  function PadStart(s: string, width: nat, c: char): (r: string)
  {
    if |s| >= width then s else Repeat(c, width - |s|) + s
  }

  /** Padding keeps a text of at least `width` characters and otherwise fills it up to exactly `width` with `c` in front. */
  lemma PadStartFacts(s: string, width: nat, c: char)
    ensures |s| >= width ==> PadStart(s, width, c) == s
    ensures |s| < width ==> |PadStart(s, width, c)| == width && PadStart(s, width, c)[width - |s|..] == s
    ensures forall i :: 0 <= i < |PadStart(s, width, c)| - |s| ==> PadStart(s, width, c)[i] == c
  {
  }

  /** `String(n).padStart(2, '0')`, the day and month fields of a date and the hour of a clock label. */
  function PadTwo(n: int): string {
    PadStart(IntString(n), 2, '0')
  }

  /** For 0..99 the padded text is exactly the tens digit followed by the units digit. */
  lemma PadTwoDigits(n: int)
    requires 0 <= n < 100
    ensures PadTwo(n) == [DigitChar(n / 10), DigitChar(n % 10)]
  {
    if n >= 10 {
      assert Digits(n) == Digits(n / 10) + [DigitChar(n % 10)];
    }
  }

  /** For 0..99 the padded text is two digits that read back as `n`. */
  lemma PadTwoRoundTrip(n: int)
    requires 0 <= n < 100
    ensures |PadTwo(n)| == 2 && IsDigit(PadTwo(n)[0]) && IsDigit(PadTwo(n)[1])
    ensures ParseDigits(PadTwo(n)) == n
  {
    PadTwoDigits(n);
    var s := PadTwo(n);
    DigitValueOfDigitChar(n / 10);
    DigitValueOfDigitChar(n % 10);
    assert s[..1] == [DigitChar(n / 10)];
    assert s[..1][..0] == [];
    assert ParseDigits(s[..1]) == n / 10;
    assert ParseDigits(s) == 10 * ParseDigits(s[..1]) + DigitValue(s[1]);
  }

  // ---------------------------------------------------------------------------
  // Gregorian calendar
  // ---------------------------------------------------------------------------

  predicate IsLeapYear(y: int) {
    y % 4 == 0 && (y % 100 != 0 || y % 400 == 0)
  }

  /** The number of days of month `m` (1..12) of year `y` in the Gregorian calendar. */
  function DaysInMonth(y: int, m: int): (n: int)
    requires 1 <= m <= 12
    ensures 28 <= n <= 31
  {
    if m == 2 then (if IsLeapYear(y) then 29 else 28)
    else if m == 4 || m == 6 || m == 9 || m == 11 then 30
    else 31
  }

  /** The month after (y, m): December is followed by January of the next year. */
  function NextMonth(y: int, m: int): (r: (int, int))
    requires 1 <= m <= 12
    ensures 1 <= r.1 <= 12
  {
    if m == 12 then (y + 1, 1) else (y, m + 1)
  }

  /**
   Days from 1970-01-01 to the first of March of year `yy + 1`, minus the
   constant 719468 that `DaysFromCivil` subtracts: the whole 400-year eras
   before `yy`, then the March-based years of the current era.
   */
  function YearBase(yy: int): int {
    var era := yy / 400;
    var yoe := yy % 400;
    era * 146097 + yoe * 365 + yoe / 4 - yoe / 100
  }

  /** Days from the first of March to the first of month `mp` of a March-based year (mp = 0 is March). */
  function MonthOffset(mp: int): int
    requires 0 <= mp < 12
  {
    (153 * mp + 2) / 5
  }

  /** The day number of (y, m, d); `d` may lie outside the month, as in `new Date(y, m - 1, d)`. */
  function DaysFromCivil(y: int, m: int, d: int): int
    requires 1 <= m <= 12
  {
    var yy := if m <= 2 then y - 1 else y;
    var mp := if m > 2 then m - 3 else m + 9;
    YearBase(yy) + MonthOffset(mp) + d - 1 - 719468
  }

  /** The calendar date of a day number (the inverse direction of `DaysFromCivil`). */
  function CivilFromDays(n: int): Civil {
    var z := n + 719468;
    var era := z / 146097;
    var doe := z % 146097;
    var yoe := (doe - doe / 1460 + doe / 36524 - doe / 146096) / 365;
    var doy := doe - (365 * yoe + yoe / 4 - yoe / 100);
    var mp := (5 * doy + 2) / 153;
    var d := doy - (153 * mp + 2) / 5 + 1;
    var m := if mp < 10 then mp + 3 else mp - 9;
    Civil(yoe + era * 400 + (if m <= 2 then 1 else 0), m, d)
  }

  /** `Date.prototype.getDay()` of a day number: 0 is Sunday; 1970-01-01 was a Thursday. */
  function Weekday(n: int): (w: int)
    ensures 0 <= w < 7
    ensures w == 0 <==> (n - 3) % 7 == 0
  {
    (n + 4) % 7
  }

  /** Stepping `x` by one raises `x / 4` by one exactly when `x + 1` is a multiple of 4. */
  lemma DivStepFour(x: int)
    ensures (x + 1) / 4 - x / 4 == (if (x + 1) % 4 == 0 then 1 else 0)
  {
  }

  /** Stepping `x` by one raises `x / 100` by one exactly when `x + 1` is a multiple of 100. */
  lemma DivStepHundred(x: int)
    ensures (x + 1) / 100 - x / 100 == (if (x + 1) % 100 == 0 then 1 else 0)
  {
  }

  /** Stepping `x` by one raises `x / 400` by one exactly when `x + 1` is a multiple of 400. */
  lemma DivStepFourHundred(x: int)
    ensures (x + 1) / 400 - x / 400 == (if (x + 1) % 400 == 0 then 1 else 0)
  {
  }

  /** Whole eras of 400 years split off the quotients by 4 and by 100. */
  lemma EraQuotients(q: int, r: int)
    requires 0 <= r < 400
    ensures (400 * q + r) / 4 == 100 * q + r / 4
    ensures (400 * q + r) / 100 == 4 * q + r / 100
  {
  }

  /** A multiple of 400 is a multiple of 100. */
  lemma HundredDividesFourHundred(k: int)
    ensures (400 * k) % 100 == 0
  {
    assert 400 * k == 100 * (4 * k);
  }

  /** A multiple of 100 is a multiple of 4. */
  lemma FourDividesHundred(k: int)
    ensures (100 * k) % 4 == 0
  {
    assert 100 * k == 4 * (25 * k);
  }

  /** The era-based count equals the plain count of days and leap days before year `yy + 1`'s March. */
  lemma YearBaseClosed(yy: int)
    ensures YearBase(yy) == 365 * yy + yy / 4 - yy / 100 + yy / 400
  {
    var q := yy / 400;
    var r := yy % 400;
    assert yy == 400 * q + r;
    EraQuotients(q, r);
  }

  /** A March-based year is 365 days long, 366 when the next calendar year is a leap year. */
  lemma YearBaseStep(yy: int)
    ensures YearBase(yy + 1) - YearBase(yy) == 365 + (if IsLeapYear(yy + 1) then 1 else 0)
  {
    YearBaseClosed(yy);
    YearBaseClosed(yy + 1);
    DivStepFour(yy);
    DivStepHundred(yy);
    DivStepFourHundred(yy);
    var x := yy + 1;
    HundredDividesFourHundred(x / 400);
    FourDividesHundred(x / 100);
  }

  /**
   `new Date(year, month + 1, 0).getDate()`: the day before the first of the
   next month is day `DaysInMonth(y, m)` of month `m`. Equivalently, month `m`
   spans exactly `DaysInMonth(y, m)` day numbers.
   */
  lemma {:induction false} MonthLengthMatchesCalendar(y: int, m: int)
    requires 1 <= m <= 12
    ensures var (ny, nm) := NextMonth(y, m);
            DaysFromCivil(ny, nm, 1) - DaysFromCivil(y, m, 1) == DaysInMonth(y, m)
  {
    MonthOffsets();
    if m == 2 {
      YearBaseStep(y - 1);
    }
  }

  /** The first days of the months of a March-based year: March 0, April 31, ..., February 337. */
  lemma MonthOffsets()
    ensures MonthOffset(0) == 0 && MonthOffset(1) == 31 && MonthOffset(2) == 61
    ensures MonthOffset(3) == 92 && MonthOffset(4) == 122 && MonthOffset(5) == 153
    ensures MonthOffset(6) == 184 && MonthOffset(7) == 214 && MonthOffset(8) == 245
    ensures MonthOffset(9) == 275 && MonthOffset(10) == 306 && MonthOffset(11) == 337
  {
  }

  // ---------------------------------------------------------------------------
  // Date strings
  // ---------------------------------------------------------------------------

  /** The year field of `toISOString`: four digits in 0..9999, otherwise a sign and six digits. */
  function YearIso(y: int): string {
    if 0 <= y <= 9999 then PadStart(Digits(y), 4, '0')
    else if y < 0 then "-" + PadStart(Digits(-y), 6, '0')
    else "+" + PadStart(Digits(y), 6, '0')
  }

  function IsoOfCivil(c: Civil): string {
    YearIso(c.year) + "-" + PadTwo(c.month) + "-" + PadTwo(c.day)
  }

  /** `toISOString().split('T')[0]` of any moment of day `n`: its `YYYY-MM-DD` text. */
  function Iso(n: int): string {
    IsoOfCivil(CivilFromDays(n))
  }

  /** The history calendar's `${year}-${pad(month)}-${pad(day)}` text, with the year unpadded. */
  function DateLabel(y: int, m: int, d: int): string {
    IntString(y) + "-" + PadTwo(m) + "-" + PadTwo(d)
  }

  /**
   For four-digit years the history calendar's label and the ISO text of the
   same date coincide, so a calendar cell finds the record of that date.
   */
  lemma LabelMatchesIso(c: Civil)
    requires 1000 <= c.year <= 9999
    ensures DateLabel(c.year, c.month, c.day) == IsoOfCivil(c)
  {
    DigitsLengthAtLeastFour(c.year);
  }

  /** A worked date: 2024-01-15 is day 19737, and 2024-01-01 was a Monday. */
  lemma DaysFromCivilExample()
    ensures DaysFromCivil(2024, 1, 15) == 19737
    ensures Weekday(DaysFromCivil(2024, 1, 1)) == 1
  {
    assert YearBase(2023) == 5 * 146097 + 23 * 365 + 5;
  }

  /** Going back from day 19737 gives 2024-01-15. */
  lemma CivilFromDaysExample()
    ensures CivilFromDays(19737) == Civil(2024, 1, 15)
  {
    assert 739205 / 146097 == 5 && 739205 % 146097 == 8720;
    assert (8720 - 8720 / 1460 + 8720 / 36524 - 8720 / 146096) / 365 == 23;
    assert 8720 - (365 * 23 + 23 / 4 - 23 / 100) == 320;
    assert (5 * 320 + 2) / 153 == 10;
    assert 320 - (153 * 10 + 2) / 5 + 1 == 15;
  }

  /** The year 2024 is written "2024". */
  lemma YearIsoExample()
    ensures YearIso(2024) == "2024"
  {
    assert Digits(2024) == Digits(202) + "4";
    assert Digits(202) == Digits(20) + "2";
    assert Digits(20) == "20";
  }

  /** The ISO text of day 19737 is "2024-01-15". */
  lemma IsoExample()
    ensures Iso(19737) == "2024-01-15"
  {
    CivilFromDaysExample();
    YearIsoExample();
    PadTwoDigits(1);
    PadTwoDigits(15);
  }
}

=== FILE: history.dfy ===
/**
 The history calendar (`HistoryPage`): the grid of one month, the markers of
 each day cell, and the money balance of a selected day.
 */
module History {
  import opened Wrappers
  import opened Calendar
  import opened Planner
  import opened TodoList
  import opened MoneyTracker

  // ---------------------------------------------------------------------------
  // String order
  // ---------------------------------------------------------------------------

  /** JavaScript's `a < b` on strings: the first differing character decides, and a proper prefix comes first. */
  predicate LexLess(a: string, b: string)
    decreases |a|
  {
    if |b| == 0 then false
    else if |a| == 0 then true
    else if a[0] != b[0] then a[0] < b[0]
    else LexLess(a[1..], b[1..])
  }

  /** A common prefix does not change the order of two strings. */
  lemma {:induction false} LexLessCommonPrefix(p: string, a: string, b: string)
    ensures LexLess(p + a, p + b) == LexLess(a, b)
    decreases |p|
  {
    if |p| > 0 {
      assert (p + a)[1..] == p[1..] + a;
      assert (p + b)[1..] == p[1..] + b;
      LexLessCommonPrefix(p[1..], a, b);
    } else {
      assert p + a == a && p + b == b;
    }
  }

  /** Digit characters are ordered like the digits. */
  lemma DigitCharOrder(a: nat, b: nat)
    requires a < b < 10
    ensures DigitChar(a) < DigitChar(b)
  {
    DigitValueOfDigitChar(a);
    DigitValueOfDigitChar(b);
  }

  /** Zero-padded two-digit numbers are ordered as text like the numbers. */
  lemma PadTwoOrder(a: int, b: int)
    requires 0 <= a < b < 100
    ensures LexLess(PadTwo(a), PadTwo(b))
  {
    PadTwoDigits(a);
    PadTwoDigits(b);
    if a / 10 < b / 10 {
      DigitCharOrder(a / 10, b / 10);
    } else {
      DigitCharOrder(a % 10, b % 10);
      assert PadTwo(a)[1..] == [DigitChar(a % 10)];
      assert PadTwo(b)[1..] == [DigitChar(b % 10)];
    }
  }

  // ---------------------------------------------------------------------------
  // getDaysInMonth
  // ---------------------------------------------------------------------------

  /** A day of the month grid: its number, its `${year}-${mm}-${dd}` text and the first record with that text. */
  datatype DayInfo = DayInfo(day: int, date: string, data: Option<DayData>)

  /**
   The year the multi-argument `Date` constructor actually uses: a year in
   0..99 is read as 1900 + year. The cell labels keep the year as given.
   */
  function DateYear(y: int): int {
    if 0 <= y <= 99 then 1900 + y else y
  }

  /** `new Date(year, month, 1).getDay()`: the weekday of the first of the month, 0 for Sunday. */
  function StartingDayOfWeek(y: int, m: int): (w: int)
    requires 1 <= m <= 12
    ensures 0 <= w < 7
  {
    Weekday(DaysFromCivil(DateYear(y), m, 1))
  }

  /**
   `new Date(year, month + 1, 0).getDate()`: day 0 of the next month is the
   last day of this one, so its day of the month is this month's length, in
   the year the constructor uses.
   */
  function MonthLength(y: int, m: int): (n: int)
    requires 1 <= m <= 12
    ensures n == DaysInMonth(DateYear(y), m)
    ensures m == 2 ==> (n == 29 <==> IsLeapYear(DateYear(y)))
  {
    var jy := DateYear(y);
    MonthLengthMatchesCalendar(jy, m);
    var next := NextMonth(jy, m);
    DaysFromCivil(next.0, next.1, 0) - DaysFromCivil(jy, m, 1) + 1
  }

  /** The grid of February of year 0 has 28 days, those of February 1900, which was not a leap year. */
  lemma YearZeroFebruary()
    ensures MonthLength(0, 2) == 28
    ensures DaysInMonth(0, 2) == 29
  {
  }

  /** The grid of a year in 0..99 opens on the weekday of the same month 1900 years later. */
  lemma TwoDigitYearWeekday(y: int, m: int)
    requires 0 <= y <= 99 && 1 <= m <= 12
    ensures StartingDayOfWeek(y, m) == StartingDayOfWeek(y + 1900, m)
  {
  }

  /** `start` empty cells (`null`) followed by the items. */
  function PadCells<T>(start: nat, items: seq<T>): (r: seq<Option<T>>)
    ensures |r| == start + |items|
    ensures forall i :: 0 <= i < |r| ==> (r[i].None? <==> i < start)
    ensures forall i :: start <= i < |r| ==> r[i] == Some(items[i - start])
  {
    seq(start, _ => None) + seq(|items|, i requires 0 <= i < |items| => Some(items[i]))
  }

  /** The days 1..n of month `m` of year `y`, each with its date text and its record. */
  function MonthDays(days: seq<DayData>, y: int, m: int, n: nat): (r: seq<DayInfo>)
    ensures |r| == n
    ensures forall k :: 0 <= k < n ==> r[k] == DayCell(days, y, m, k + 1)
  {
    seq(n, k => DayCell(days, y, m, k + 1))
  }

  /** The cell of day `d`: its number, its `${year}-${mm}-${dd}` label and the first record with that label. */
  function DayCell(days: seq<DayData>, y: int, m: int, d: int): (c: DayInfo)
    ensures c.day == d && c.date == DateLabel(y, m, d) && c.data == FirstWithDate(days, c.date)
  {
    var text := DateLabel(y, m, d);
    DayInfo(d, text, FirstWithDate(days, text))
  }

  /** `start` empty cells, then the days 1..n of month `m` of year `y`. */
  function GridOf(days: seq<DayData>, y: int, m: int, start: nat, n: nat): (r: seq<Option<DayInfo>>)
    ensures |r| == start + n
    ensures forall i :: 0 <= i < |r| ==> (r[i].None? <==> i < start)
    ensures forall i :: start <= i < |r| ==> r[i] == Some(DayCell(days, y, m, i - start + 1))
  {
    PadCells(start, MonthDays(days, y, m, n))
  }

  /**
   The month grid: one empty cell per weekday before the first of the month,
   then one cell per day of the month.
   */
  function MonthGrid(days: seq<DayData>, y: int, m: int): (r: seq<Option<DayInfo>>)
    requires 1 <= m <= 12
    ensures |r| == StartingDayOfWeek(y, m) + DaysInMonth(DateYear(y), m)
    ensures forall i :: 0 <= i < |r| ==> (r[i].None? <==> i < StartingDayOfWeek(y, m))
    ensures forall i :: StartingDayOfWeek(y, m) <= i < |r| ==>
              r[i] == Some(DayCell(days, y, m, i - StartingDayOfWeek(y, m) + 1))
  {
    GridOf(days, y, m, StartingDayOfWeek(y, m), MonthLength(y, m))
  }

  /** Within a month, the date texts of earlier days come first as text, so the day cells' dates ascend strictly. */
  lemma DateLabelsAscend(y: int, m: int, a: int, b: int)
    requires 0 <= a < b < 100
    ensures LexLess(DateLabel(y, m, a), DateLabel(y, m, b))
  {
    var p := IntString(y) + "-" + PadTwo(m) + "-";
    assert DateLabel(y, m, a) == p + PadTwo(a);
    assert DateLabel(y, m, b) == p + PadTwo(b);
    PadTwoOrder(a, b);
    LexLessCommonPrefix(p, PadTwo(a), PadTwo(b));
  }

  /**
   With seven columns, the cell of day `d` (index `start + d - 1`) sits in the
   column of that day's weekday, in the year the `Date` constructor uses.
   */
  lemma GridColumnIsWeekday(y: int, m: int, d: int)
    requires 1 <= m <= 12
    ensures (StartingDayOfWeek(y, m) + d - 1) % 7 == Weekday(DaysFromCivil(DateYear(y), m, d))
  {
    var first := DaysFromCivil(DateYear(y), m, 1);
    var start := StartingDayOfWeek(y, m);
    assert DaysFromCivil(DateYear(y), m, d) == first + d - 1;
    var q := (first + 4) / 7;
    assert first + 4 == 7 * q + start;
    assert first + d - 1 + 4 == 7 * q + (start + d - 1);
    ModSevenShift(q, start + d - 1);
  }

  /** Adding whole weeks does not change the weekday. */
  lemma ModSevenShift(q: int, i: int)
    ensures (7 * q + i) % 7 == i % 7
  {
  }

  /**
   The cell at index `i` past the blanks is day `i - start + 1`, labelled with
   that day's date; it holds a record of the list dated as the cell, and holds
   none only when the list has no such record.
   */
  lemma GridCellData(days: seq<DayData>, y: int, m: int, i: int)
    requires 1 <= m <= 12
    requires StartingDayOfWeek(y, m) <= i < |MonthGrid(days, y, m)|
    ensures var c := MonthGrid(days, y, m)[i].value;
            && c.day == i - StartingDayOfWeek(y, m) + 1
            && c.date == DateLabel(y, m, c.day)
            && (c.data.Some? ==> c.data.value in days && Iso(c.data.value.date) == c.date)
            && (c.data.None? <==> forall r :: r in days ==> Iso(r.date) != c.date)
  {
  }

  // ---------------------------------------------------------------------------
  // getDayIndicators
  // ---------------------------------------------------------------------------

  /** The markers of a day cell. */
  datatype Indicators = Indicators(hasData: bool, completedTasks: nat, totalTasks: nat, waterGoalMet: bool, rating: int)

  /** The markers of a cell: all off for a day without a record, otherwise read from the record. */
  function GetDayIndicators(data: Option<DayData>): (r: Indicators)
    ensures data.None? ==> r == Indicators(false, 0, 0, false, 0)
    ensures data.Some? ==>
              && r.hasData && r.totalTasks == |data.value.todos|
              && r.completedTasks == CompletedCount(data.value.todos)
              && r.completedTasks <= r.totalTasks
              && (r.waterGoalMet <==> data.value.waterIntake >= data.value.waterGoal)
              && r.rating == data.value.dayRating
  {
    match data
    case None => Indicators(false, 0, 0, false, 0)
    case Some(d) => Indicators(true, CompletedCount(d.todos), |d.todos|, d.waterIntake >= d.waterGoal, d.dayRating)
  }

  /** The task dot of a cell: green when all tasks are done, amber when some are, grey when none are, absent without tasks. */
  datatype Dot = NoDot | Green | Amber | Grey

  function TaskDot(ind: Indicators): Dot {
    if !ind.hasData || ind.totalTasks == 0 then NoDot
    else if ind.completedTasks == ind.totalTasks then Green
    else if ind.completedTasks > 0 then Amber
    else Grey
  }

  /** The dot colours say what the record's task list holds. */
  lemma TaskDotMeaning(d: DayData)
    ensures var dot := TaskDot(GetDayIndicators(Some(d)));
            && (dot == NoDot <==> |d.todos| == 0)
            && (dot == Green <==> |d.todos| > 0 && forall t :: t in d.todos ==> t.completed)
            && (dot == Grey <==> |d.todos| > 0 && forall t :: t in d.todos ==> !t.completed)
            && (dot == Amber <==> (exists t :: t in d.todos && t.completed) && (exists t :: t in d.todos && !t.completed))
  {
    if |d.todos| > 0 {
      assert d.todos[0] in d.todos;
    }
  }

  // ---------------------------------------------------------------------------
  // The balance of the selected day
  // ---------------------------------------------------------------------------

  /** `reduce((sum, e) => sum + (income ? e.amount : -e.amount), 0)`, from the left. */
  function DayBalance(es: seq<MoneyEntry>): real
    decreases |es|
  {
    if |es| == 0 then 0.0
    else
      var e := es[|es| - 1];
      DayBalance(es[..|es| - 1]) + (if e.kind == Income then e.amount else -e.amount)
  }

  /** The signed sum the history panel shows is the balance the money tracker shows. */
  lemma {:induction false} DayBalanceIsBalance(es: seq<MoneyEntry>)
    ensures DayBalance(es) == Balance(es)
    decreases |es|
  {
    if |es| > 0 {
      var init := es[..|es| - 1];
      assert es == init + [es[|es| - 1]];
      DayBalanceIsBalance(init);
      TotalOfAppend(init, es[|es| - 1], Income);
      TotalOfAppend(init, es[|es| - 1], Expense);
    }
  }
}

=== FILE: money.dfy ===
/**
 The money tracker of a day (`MoneyTracker`): the entry form, adding and
 deleting entries, and the income, expense and balance totals. Amounts are
 exact reals; the text of the amount field is read by the caller and passed
 in already converted, and the id and creation moment come from the clock.
 */
module MoneyTracker {
  import opened Planner
  import opened Sequences

  /** The categories offered by the form, in the order shown. */
  const Categories: seq<string> := [
    "Food", "Transport", "Shopping", "Entertainment", "Bills",
    "Health", "Education", "Work", "Other"
  ]

  /** The category a fresh form starts with. */
  const DefaultCategory: string := "Food"

  /** The form state: whether it is open, the two text fields and the two pickers. */
  datatype Form = Form(open: bool, amount: string, description: string, kind: MoneyKind, category: string)

  /** The form as it starts out and as it is left after an entry is added: closed, blank, an expense under the default category. */
  const BlankForm: Form := Form(false, "", "", Expense, DefaultCategory)

  /** The category list holds nine different labels and starts with the default. */
  lemma CategoriesAreNineDistinct()
    ensures |Categories| == 9 && Categories[0] == DefaultCategory
    ensures forall i, j :: 0 <= i < j < |Categories| ==> Categories[i] != Categories[j]
    ensures BlankForm.category in Categories
  {
  }

  // ---------------------------------------------------------------------------
  // addEntry, deleteEntry
  // ---------------------------------------------------------------------------

  /** Both text fields are filled in: the only condition under which "Add Entry" does anything. */
  predicate Filled(form: Form) {
    form.amount != "" && form.description != ""
  }

  /**
   Adds the entry described by the form and resets the form. `amount` is the
   number read from the amount field, `id` and `now` the new id and creation
   moment. With either text field empty, neither the list nor the form changes.
   */
  function AddEntry(entries: seq<MoneyEntry>, form: Form, amount: real, id: string, now: int)
    : (r: (seq<MoneyEntry>, Form))
    ensures !Filled(form) <==> r == (entries, form)
    ensures Filled(form) ==> |r.0| == |entries| + 1 && r.0[..|entries|] == entries
    ensures Filled(form) ==> var e := r.0[|entries|];
              && e.id == id && e.amount == amount && e.date == now
              && e.description == form.description && e.kind == form.kind
              && e.category == form.category
    ensures Filled(form) ==> r.1 == BlankForm
  {
    if Filled(form) then
      (entries + [MoneyEntry(id, amount, form.description, form.kind, form.category, now)], BlankForm)
    else
      (entries, form)
  }

  /** The filter that keeps the entries whose id differs from `id`. */
  function EntryIdIsNot(id: string): MoneyEntry -> bool {
    (e: MoneyEntry) => e.id != id
  }

  /** No entry has this id. */
  predicate FreshEntryId(entries: seq<MoneyEntry>, id: string) {
    forall e :: e in entries ==> e.id != id
  }

  /** Removes the entries with this id; the others stay, in order. An absent id changes nothing. */
  function DeleteEntry(entries: seq<MoneyEntry>, id: string): (r: seq<MoneyEntry>)
    ensures forall e :: e in r <==> e in entries && e.id != id
    ensures IsSubsequence(r, entries)
    ensures FreshEntryId(entries, id) ==> r == entries
    ensures forall e :: Copies(r, e) == if e.id != id then Copies(entries, e) else 0
  {
    FilterIsSubsequence(entries, EntryIdIsNot(id));
    assert forall e :: Copies(Filter(entries, EntryIdIsNot(id)), e) == if e.id != id then Copies(entries, e) else 0 by {
      forall e { FilterCount(entries, EntryIdIsNot(id), e); }
    }
    if FreshEntryId(entries, id) then
      FilterAllKept(entries, EntryIdIsNot(id));
      Filter(entries, EntryIdIsNot(id))
    else
      Filter(entries, EntryIdIsNot(id))
  }

  /** Deleting the entry just added under a fresh id restores the list. */
  lemma {:induction false} DeleteUndoesAddEntry(entries: seq<MoneyEntry>, form: Form, amount: real, id: string, now: int)
    requires FreshEntryId(entries, id)
    ensures DeleteEntry(AddEntry(entries, form, amount, id, now).0, id) == entries
  {
    if Filled(form) {
      var added := AddEntry(entries, form, amount, id, now).0;
      var e := added[|entries|];
      assert added == entries + [e];
      FilterConcat(entries, [e], EntryIdIsNot(id));
      FilterAllKept(entries, EntryIdIsNot(id));
      assert Filter([e], EntryIdIsNot(id)) == [];
    }
  }

  /** The list is shown newest first: `entries.slice().reverse()`. */
  function Displayed(entries: seq<MoneyEntry>): (r: seq<MoneyEntry>)
    ensures |r| == |entries|
    ensures forall i :: 0 <= i < |r| ==> r[i] == entries[|entries| - 1 - i]
  {
    seq(|entries|, i requires 0 <= i < |entries| => entries[|entries| - 1 - i])
  }

  /** An added entry is shown at the top, above the entries shown before. */
  lemma AddedShownFirst(entries: seq<MoneyEntry>, form: Form, amount: real, id: string, now: int)
    requires Filled(form)
    ensures var added := AddEntry(entries, form, amount, id, now).0;
            Displayed(added) == [added[|entries|]] + Displayed(entries)
  {
  }

  // ---------------------------------------------------------------------------
  // Totals
  // ---------------------------------------------------------------------------

  /** The filter that keeps the entries of one kind. */
  function IsKind(k: MoneyKind): MoneyEntry -> bool {
    (e: MoneyEntry) => e.kind == k
  }

  /** `reduce((sum, e) => sum + e.amount, 0)`, summed from the left as `reduce` does. */
  function SumAmounts(es: seq<MoneyEntry>): (r: real)
    ensures (forall e :: e in es ==> e.amount >= 0.0) ==> r >= 0.0
    decreases |es|
  {
    if |es| == 0 then 0.0
    else
      assert forall e :: e in es[..|es| - 1] ==> e in es;
      SumAmounts(es[..|es| - 1]) + es[|es| - 1].amount
  }

  /** Summing a concatenation is summing the two parts. */
  lemma {:induction false} SumConcat(a: seq<MoneyEntry>, b: seq<MoneyEntry>)
    ensures SumAmounts(a + b) == SumAmounts(a) + SumAmounts(b)
    decreases |b|
  {
    if |b| == 0 {
      assert a + b == a;
    } else {
      var c := a + b;
      assert c[..|c| - 1] == a + b[..|b| - 1];
      SumConcat(a, b[..|b| - 1]);
    }
  }

  /** The sum of the amounts of the entries of one kind. */
  function TotalOf(es: seq<MoneyEntry>, k: MoneyKind): (r: real)
    ensures (forall e :: e in es ==> e.kind != k) ==> r == 0.0
    ensures (forall e :: e in es ==> e.amount >= 0.0) ==> r >= 0.0
  {
    var kept := Filter(es, IsKind(k));
    assert |kept| > 0 ==> kept[0] in kept;
    SumAmounts(kept)
  }

  function TotalExpenses(es: seq<MoneyEntry>): real {
    TotalOf(es, Expense)
  }

  function TotalIncome(es: seq<MoneyEntry>): real {
    TotalOf(es, Income)
  }

  /** `totalIncome - totalExpenses`. */
  function Balance(es: seq<MoneyEntry>): real {
    TotalIncome(es) - TotalExpenses(es)
  }

  /** Appending one entry adds its amount to the total of its kind and leaves the other total alone. */
  lemma {:induction false} TotalOfAppend(es: seq<MoneyEntry>, e: MoneyEntry, k: MoneyKind)
    ensures TotalOf(es + [e], k) == TotalOf(es, k) + (if e.kind == k then e.amount else 0.0)
  {
    FilterConcat(es, [e], IsKind(k));
    SumConcat(Filter(es, IsKind(k)), Filter([e], IsKind(k)));
  }

  /** The total of one kind over two lists together is the sum of the two totals. */
  lemma {:induction false} TotalOfConcat(a: seq<MoneyEntry>, b: seq<MoneyEntry>, k: MoneyKind)
    ensures TotalOf(a + b, k) == TotalOf(a, k) + TotalOf(b, k)
  {
    FilterConcat(a, b, IsKind(k));
    SumConcat(Filter(a, IsKind(k)), Filter(b, IsKind(k)));
  }

  /**
   Adding an income of amount `a` raises the income total by `a` and keeps the
   expense total; adding an expense does the reverse. The balance moves by
   `+a` or `-a` accordingly.
   */
  lemma {:induction false} AddEntryTotals(entries: seq<MoneyEntry>, form: Form, amount: real, id: string, now: int)
    requires Filled(form)
    ensures var added := AddEntry(entries, form, amount, id, now).0;
            && TotalIncome(added) == TotalIncome(entries) + (if form.kind == Income then amount else 0.0)
            && TotalExpenses(added) == TotalExpenses(entries) + (if form.kind == Expense then amount else 0.0)
            && Balance(added) == Balance(entries) + (if form.kind == Income then amount else -amount)
  {
    var added := AddEntry(entries, form, amount, id, now).0;
    assert added == entries + [added[|entries|]];
    TotalOfAppend(entries, added[|entries|], Income);
    TotalOfAppend(entries, added[|entries|], Expense);
  }

  /** Every entry is either an expense or an income: the two totals together are the sum of all amounts. */
  lemma {:induction false} TotalsPartitionSum(es: seq<MoneyEntry>)
    ensures TotalIncome(es) + TotalExpenses(es) == SumAmounts(es)
    decreases |es|
  {
    if |es| > 0 {
      var init := es[..|es| - 1];
      assert es == init + [es[|es| - 1]];
      TotalsPartitionSum(init);
      TotalOfAppend(init, es[|es| - 1], Income);
      TotalOfAppend(init, es[|es| - 1], Expense);
    }
  }
}

=== FILE: planner.dfy ===
/**
 The planner's records: one `DayData` per calendar day, holding that day's
 tasks, hourly notes, money entries, water intake, meals, rating and highlight.
 */
module Planner {
  import opened Wrappers
  import opened Calendar
  import opened Sequences

  /** A task. `priority` is the list length plus one at the moment it was added. */
  datatype TodoItem = TodoItem(id: string, text: string, completed: bool, priority: int)

  /** The note for one hour of the day. */
  datatype TimeSlot = TimeSlot(hour: int, activity: string)

  /** The two kinds of money entry; the sign of an amount is carried by its kind. */
  datatype MoneyKind = Expense | Income

  /**
   One money entry. `date` is the moment the entry was created (milliseconds),
   independent of the day record it belongs to.
   */
  datatype MoneyEntry = MoneyEntry(
    id: string,
    amount: real,
    description: string,
    kind: MoneyKind,
    category: string,
    date: int)

  datatype MealPlan = MealPlan(breakfast: string, lunch: string, dinner: string, snacks: string)

  /**
   Everything recorded for one day. `date` is the day number (see `Calendar`);
   its `YYYY-MM-DD` text is `Iso(date)`.
   */
  datatype DayData = DayData(
    id: string,
    date: int,
    todos: seq<TodoItem>,
    timeSlots: seq<TimeSlot>,
    moneyEntries: seq<MoneyEntry>,
    waterIntake: real,
    waterGoal: real,
    exerciseHours: real,
    mealPlan: MealPlan,
    dayRating: int,
    highlight: string)

  /** Hours in a day; a record keeps one time slot per hour. */
  const HoursPerDay: int := 24

  /** The slots of a whole day: slot `i` is the slot of hour `i`, for every hour. */
  predicate FullDay(slots: seq<TimeSlot>) {
    |slots| == HoursPerDay && forall i :: 0 <= i < |slots| ==> slots[i].hour == i
  }

  /** The rating scale: 0 is "not rated", the rating buttons give 1..5. */
  predicate IsRating(r: int) {
    0 <= r <= 5
  }

  /**
   The invariants every record the planner writes satisfies: the id is derived
   from the date, the day is covered by 24 hourly slots, the water figures are
   sensible and the rating is on its scale.
   */
  predicate WellFormed(r: DayData) {
    && r.id == "day-" + Iso(r.date)
    && FullDay(r.timeSlots)
    && r.waterIntake >= 0.0
    && r.waterGoal > 0.0
    && IsRating(r.dayRating)
  }

  /** The test `d => d.date === text`. */
  function HasDateText(text: string): DayData -> bool {
    (d: DayData) => Iso(d.date) == text
  }

  /** `days.find(d => d.date === text)`: the first record whose date text is `text`, or None. */
  function FirstWithDate(days: seq<DayData>, text: string): (r: Option<DayData>)
    ensures r.None? <==> forall i :: 0 <= i < |days| ==> Iso(days[i].date) != text
    ensures r.Some? ==> exists i :: 0 <= i < |days| && days[i] == r.value
                                    && forall j :: 0 <= j < i ==> Iso(days[j].date) != text
    ensures r.Some? ==> Iso(r.value.date) == text
  {
    FirstWhere(days, HasDateText(text))
  }
}

=== FILE: sequences.dfy ===
/**
 Order-preserving filtering over sequences, the model of JavaScript's
 `Array.prototype.filter` with a side-effect-free predicate.
 */
module Sequences {
  import opened Wrappers

  /** `a` can be obtained from `b` by deleting elements, keeping the order of the rest. */
  ghost predicate IsSubsequence<T>(a: seq<T>, b: seq<T>)
    decreases |b|
  {
    if |a| == 0 then true
    else if |b| == 0 then false
    else (a[0] == b[0] && IsSubsequence(a[1..], b[1..])) || IsSubsequence(a, b[1..])
  }

  /** The elements of `s` that satisfy `p`, in their original order. */
  function Filter<T>(s: seq<T>, p: T -> bool): (r: seq<T>)
    ensures |r| <= |s|
    ensures forall x :: x in r ==> x in s && p(x)
    ensures forall x :: x in s && p(x) ==> x in r
    decreases |s|
  {
    if |s| == 0 then []
    else if p(s[0]) then [s[0]] + Filter(s[1..], p)
    else Filter(s[1..], p)
  }

  /** The number of copies of `x` in `s`. */
  ghost function Copies<T>(s: seq<T>, x: T): nat {
    multiset(s)[x]
  }

  /** A filter keeps every copy of an element it keeps: the multiplicities of kept elements are those of the input. */
  lemma {:induction false} FilterCount<T>(s: seq<T>, p: T -> bool, x: T)
    ensures Copies(Filter(s, p), x) == if p(x) then Copies(s, x) else 0
    decreases |s|
  {
    if |s| > 0 {
      assert s == [s[0]] + s[1..];
      FilterCount(s[1..], p, x);
    }
  }

  /** Keeping every element is the identity; in particular nothing is reordered. */
  lemma {:induction false} FilterAllKept<T>(s: seq<T>, p: T -> bool)
    requires forall x :: x in s ==> p(x)
    ensures Filter(s, p) == s
    decreases |s|
  {
    if |s| > 0 {
      assert s[0] in s;
      assert forall x :: x in s[1..] ==> x in s;
      FilterAllKept(s[1..], p);
      assert s == [s[0]] + s[1..];
    }
  }

  /** Filtering distributes over concatenation. */
  lemma {:induction false} FilterConcat<T>(a: seq<T>, b: seq<T>, p: T -> bool)
    ensures Filter(a + b, p) == Filter(a, p) + Filter(b, p)
    decreases |a|
  {
    if |a| == 0 {
      assert a + b == b;
    } else {
      assert (a + b)[0] == a[0];
      assert (a + b)[1..] == a[1..] + b;
      FilterConcat(a[1..], b, p);
    }
  }

  /** The result of a filter is an order-preserving subsequence of its input. */
  lemma {:induction false} FilterIsSubsequence<T>(s: seq<T>, p: T -> bool)
    ensures IsSubsequence(Filter(s, p), s)
    decreases |s|
  {
    if |s| > 0 {
      FilterIsSubsequence(s[1..], p);
    }
  }

  /** Filtering twice with the same predicate changes nothing the second time. */
  lemma {:induction false} FilterIdempotent<T>(s: seq<T>, p: T -> bool)
    ensures Filter(Filter(s, p), p) == Filter(s, p)
  {
    FilterAllKept(Filter(s, p), p);
  }

  /**
   When every element kept by `q` is also kept by `p`, filtering first by `p`
   and then by `q` is the same as filtering by `q` alone.
   */
  lemma {:induction false} FilterNarrow<T>(s: seq<T>, p: T -> bool, q: T -> bool)
    requires forall x :: x in s && q(x) ==> p(x)
    ensures Filter(Filter(s, p), q) == Filter(s, q)
    decreases |s|
  {
    if |s| > 0 {
      assert s[0] in s;
      assert forall x :: x in s[1..] ==> x in s;
      FilterNarrow(s[1..], p, q);
      if p(s[0]) {
        assert Filter(s, p) == [s[0]] + Filter(s[1..], p);
        FilterConcat([s[0]], Filter(s[1..], p), q);
      }
    }
  }

  /** A filter that keeps as many elements as it was given kept every element. */
  lemma {:induction false} FilterFullLength<T>(s: seq<T>, p: T -> bool)
    requires |Filter(s, p)| == |s|
    ensures forall x :: x in s ==> p(x)
    decreases |s|
  {
    if |s| > 0 {
      assert p(s[0]);
      FilterFullLength(s[1..], p);
      assert forall x :: x in s ==> x == s[0] || x in s[1..];
    }
  }

  /** A filter keeps its whole input exactly when every element passes. */
  lemma FilterKeepsAllIff<T>(s: seq<T>, p: T -> bool)
    ensures |Filter(s, p)| == |s| <==> forall x :: x in s ==> p(x)
  {
    if forall x :: x in s ==> p(x) {
      FilterAllKept(s, p);
    }
    if |Filter(s, p)| == |s| {
      FilterFullLength(s, p);
    }
  }

  /**
   Without repetitions, a filter keeps as many elements as there are distinct
   elements that pass: as many as any set `S` holding exactly those elements.
   */
  lemma {:induction false} FilterCountSet<T>(s: seq<T>, p: T -> bool, S: set<T>)
    requires forall i, j :: 0 <= i < j < |s| ==> s[i] != s[j]
    requires forall x :: x in S <==> x in s && p(x)
    ensures |Filter(s, p)| == |S|
    decreases |s|
  {
    if |s| == 0 {
      assert S == {};
    } else {
      var rest := s[1..];
      assert forall x :: x in s <==> x == s[0] || x in rest;
      assert s[0] !in rest;
      var smaller := if p(s[0]) then S - {s[0]} else S;
      FilterCountSet(rest, p, smaller);
    }
  }

  /** `Array.prototype.find`: the first element that passes the test, or None when none does. */
  function FirstWhere<T>(s: seq<T>, p: T -> bool): (r: Option<T>)
    ensures r.None? <==> forall i :: 0 <= i < |s| ==> !p(s[i])
    ensures r.Some? ==> exists i :: 0 <= i < |s| && s[i] == r.value && p(r.value)
                                    && forall j :: 0 <= j < i ==> !p(s[j])
    decreases |s|
  {
    if |s| == 0 then None
    else if p(s[0]) then Some(s[0])
    else
      assert forall i :: 1 <= i < |s| ==> s[i] == s[1..][i - 1];
      FirstWhere(s[1..], p)
  }
}

=== FILE: stats.dfy ===
/**
 The statistics page (`StatsPage`): the daily, weekly and monthly selection of
 day records, the task, money, water and rating figures over the selection,
 and the strip of the last seven days. `now` is the moment the page is drawn,
 in milliseconds; the calendar is taken in UTC.
 */
module Stats {
  import opened Wrappers
  import opened Calendar
  import opened Planner
  import opened Sequences
  import opened TodoList
  import opened MoneyTracker
  import opened History

  // ---------------------------------------------------------------------------
  // getFilteredDays
  // ---------------------------------------------------------------------------

  datatype Period = Daily | Weekly | Monthly

  /** The day number of the moment `now`. */
  function Today(now: int): (t: int)
    ensures t * MsPerDay <= now < (t + 1) * MsPerDay
  {
    now / MsPerDay
  }

  /** `new Date(day.date)` of a `YYYY-MM-DD` text: midnight at the start of that day. */
  function Midnight(date: int): int {
    date * MsPerDay
  }

  /** Whether a record is selected for the period. The weekly and monthly windows reach back 7 and 30 days from `now`, with no upper bound. */
  predicate InPeriod(p: Period, now: int, d: DayData) {
    match p
    case Daily => d.date == Today(now)
    case Weekly => Midnight(d.date) >= now - 7 * MsPerDay
    case Monthly => Midnight(d.date) >= now - 30 * MsPerDay
  }

  function InPeriodTest(p: Period, now: int): DayData -> bool {
    (d: DayData) => InPeriod(p, now, d)
  }

  /** The selected records: those in the period, in their original order. */
  function FilteredDays(days: seq<DayData>, p: Period, now: int): (r: seq<DayData>)
    ensures forall d :: d in r <==> d in days && InPeriod(p, now, d)
    ensures IsSubsequence(r, days)
    ensures forall d :: Copies(r, d) == if InPeriod(p, now, d) then Copies(days, d) else 0
  {
    FilterIsSubsequence(days, InPeriodTest(p, now));
    assert forall d :: Copies(Filter(days, InPeriodTest(p, now)), d) == if InPeriod(p, now, d) then Copies(days, d) else 0 by {
      forall d { FilterCount(days, InPeriodTest(p, now), d); }
    }
    Filter(days, InPeriodTest(p, now))
  }

  /** The length of the window of a period, in days. */
  function WindowDays(p: Period): int {
    match p
    case Daily => 0
    case Weekly => 7
    case Monthly => 30
  }

  /**
   The weekly and monthly windows in day numbers: a record `w` days back from
   today (`w` = 7 or 30) is selected only when `now` is exactly midnight; at
   any other time of day the window starts one day later.
   */
  lemma {:induction false} WindowBoundary(p: Period, now: int, d: DayData)
    requires p != Daily
    ensures InPeriod(p, now, d) <==>
              d.date >= Today(now) - WindowDays(p) + (if now % MsPerDay == 0 then 0 else 1)
  {
    var t := Today(now);
    var w := WindowDays(p);
    assert now == t * MsPerDay + now % MsPerDay;
    if now % MsPerDay == 0 {
      assert InPeriod(p, now, d) <==> d.date * MsPerDay >= (t - w) * MsPerDay;
    } else {
      assert InPeriod(p, now, d) <==> d.date * MsPerDay > (t - w) * MsPerDay;
    }
  }

  /** Today's record is in every window, and the weekly window lies within the monthly one. */
  lemma PeriodsNest(now: int, d: DayData)
    ensures InPeriod(Daily, now, d) ==> InPeriod(Weekly, now, d)
    ensures InPeriod(Weekly, now, d) ==> InPeriod(Monthly, now, d)
  {
  }

  /** Selecting the week out of the month's selection is selecting the week; likewise today out of the week. */
  lemma {:induction false} FilteredDaysNest(days: seq<DayData>, now: int)
    ensures FilteredDays(FilteredDays(days, Monthly, now), Weekly, now) == FilteredDays(days, Weekly, now)
    ensures FilteredDays(FilteredDays(days, Weekly, now), Daily, now) == FilteredDays(days, Daily, now)
  {
    forall d | d in days && InPeriod(Weekly, now, d) ensures InPeriod(Monthly, now, d) {
      PeriodsNest(now, d);
    }
    FilterNarrow(days, InPeriodTest(Monthly, now), InPeriodTest(Weekly, now));
    forall d | d in days && InPeriod(Daily, now, d) ensures InPeriod(Weekly, now, d) {
      PeriodsNest(now, d);
    }
    FilterNarrow(days, InPeriodTest(Weekly, now), InPeriodTest(Daily, now));
  }

  /**
   At noon on 2024-01-15 (day 19737) the weekly window leaves out 2024-01-08
   (day 19730) and keeps 2024-01-09; at midnight it keeps 2024-01-08 as well.
   */
  lemma WeeklyBoundaryExample(d: DayData)
    ensures d.date == 19730 ==> !InPeriod(Weekly, 19737 * MsPerDay + MsPerDay / 2, d)
    ensures d.date == 19731 ==> InPeriod(Weekly, 19737 * MsPerDay + MsPerDay / 2, d)
    ensures d.date == 19730 ==> InPeriod(Weekly, 19737 * MsPerDay, d)
  {
  }

  // ---------------------------------------------------------------------------
  // Tasks
  // ---------------------------------------------------------------------------

  /** `reduce((sum, day) => sum + day.todos.length, 0)`. */
  function TotalTasks(days: seq<DayData>): nat
    decreases |days|
  {
    if |days| == 0 then 0 else TotalTasks(days[..|days| - 1]) + |days[|days| - 1].todos|
  }

  /** Every task of every day is completed. */
  predicate AllDone(days: seq<DayData>) {
    forall i, t :: 0 <= i < |days| && t in days[i].todos ==> t.completed
  }

  /** `reduce((sum, day) => sum + day.todos.filter(t => t.completed).length, 0)`; never more than the total, and equal to it exactly when every task is done. */
  function CompletedTasks(days: seq<DayData>): (n: nat)
    ensures n <= TotalTasks(days)
    ensures n == TotalTasks(days) <==> AllDone(days)
    decreases |days|
  {
    if |days| == 0 then 0
    else
      var init := days[..|days| - 1];
      assert forall i :: 0 <= i < |init| ==> init[i] == days[i];
      CompletedTasks(init) + CompletedCount(days[|days| - 1].todos)
  }

  /** Every task of the selection, day after day: the list the two counts are counts over. */
  function AllTodos(days: seq<DayData>): seq<TodoItem>
    decreases |days|
  {
    if |days| == 0 then [] else AllTodos(days[..|days| - 1]) + days[|days| - 1].todos
  }

  /**
   The per-day sums count the same tasks as one count over all tasks of the
   selection: `TotalTasks` is the number of tasks and `CompletedTasks` the
   number of completed ones.
   */
  lemma {:induction false} TaskCountsAreFlatCounts(days: seq<DayData>)
    ensures TotalTasks(days) == |AllTodos(days)|
    ensures CompletedTasks(days) == CompletedCount(AllTodos(days))
    decreases |days|
  {
    if |days| > 0 {
      var init := days[..|days| - 1];
      TaskCountsAreFlatCounts(init);
      CompletedCountConcat(AllTodos(init), days[|days| - 1].todos);
    }
  }

  /** `rate` is `part` out of `total` in percent: rate · total = part · 100, and 0 when there is nothing to count. */
  predicate IsPercentOf(rate: real, part: nat, total: nat) {
    (total == 0 ==> rate == 0.0) && (total > 0 ==> rate * total as real == part as real * 100.0)
  }

  /** `done / total * 100` when there is something to count, 0 otherwise. */
  function Share(done: nat, total: nat): (rate: real)
    requires done <= total
    ensures 0.0 <= rate <= 100.0
    ensures IsPercentOf(rate, done, total)
    ensures total > 0 ==> (rate == 100.0 <==> done == total)
  {
    if total > 0 then
      var q := done as real / total as real;
      ShareBounds(done, total, q);
      q * 100.0
    else 0.0
  }

  /** The quotient of `done <= total` by `total` lies in [0, 1] and is 1 exactly when `done == total`. */
  lemma ShareBounds(done: nat, total: nat, q: real)
    requires 0 < total && done <= total && q == done as real / total as real
    ensures q * total as real == done as real
    ensures 0.0 <= q <= 1.0
    ensures q == 1.0 <==> done == total
  {
    assert q * total as real == done as real;
  }

  /** The completion rate in percent, `Share` of the completed tasks: 0 without tasks, 100 exactly when every task of every day is done. */
  function CompletionRate(days: seq<DayData>): (rate: real)
    ensures 0.0 <= rate <= 100.0
    ensures TotalTasks(days) == 0 ==> rate == 0.0
    ensures TotalTasks(days) > 0 ==>
              (rate == 100.0 <==> AllDone(days))
    ensures IsPercentOf(rate, CompletedTasks(days), TotalTasks(days))
  {
    Share(CompletedTasks(days), TotalTasks(days))
  }

  // ---------------------------------------------------------------------------
  // Money
  // ---------------------------------------------------------------------------

  /** The total of one kind per day, summed over the days. */
  function SumOverDays(days: seq<DayData>, k: MoneyKind): real
    decreases |days|
  {
    if |days| == 0 then 0.0
    else SumOverDays(days[..|days| - 1], k) + TotalOf(days[|days| - 1].moneyEntries, k)
  }

  /** "Spent": the expense totals of the selected days, added up. */
  function TotalSpent(days: seq<DayData>): real {
    SumOverDays(days, Expense)
  }

  /** "Earned": the income totals of the selected days, added up. */
  function TotalEarned(days: seq<DayData>): real {
    SumOverDays(days, Income)
  }

  /** All money entries of the days, day after day. */
  function AllEntries(days: seq<DayData>): seq<MoneyEntry>
    decreases |days|
  {
    if |days| == 0 then [] else AllEntries(days[..|days| - 1]) + days[|days| - 1].moneyEntries
  }

  /** Adding up the per-day totals is totalling all entries of all days at once. */
  lemma {:induction false} SumOverDaysIsTotal(days: seq<DayData>, k: MoneyKind)
    ensures SumOverDays(days, k) == TotalOf(AllEntries(days), k)
    decreases |days|
  {
    if |days| > 0 {
      var init := days[..|days| - 1];
      SumOverDaysIsTotal(init, k);
      TotalOfConcat(AllEntries(init), days[|days| - 1].moneyEntries, k);
    } else {
      assert Filter(AllEntries(days), IsKind(k)) == [];
    }
  }

  /** The "Net" figure, earned minus spent, is the money tracker's balance over all entries of the selection. */
  lemma NetIsBalance(days: seq<DayData>)
    ensures TotalEarned(days) - TotalSpent(days) == Balance(AllEntries(days))
  {
    SumOverDaysIsTotal(days, Income);
    SumOverDaysIsTotal(days, Expense);
  }

  // ---------------------------------------------------------------------------
  // Water and rating
  // ---------------------------------------------------------------------------

  function SumWater(days: seq<DayData>): real
    decreases |days|
  {
    if |days| == 0 then 0.0 else SumWater(days[..|days| - 1]) + days[|days| - 1].waterIntake
  }

  /** Intakes that are never negative and never above `hi` add up to at most `hi` per day. */
  lemma {:induction false} SumWaterBounds(days: seq<DayData>, hi: real)
    requires forall i :: 0 <= i < |days| ==> 0.0 <= days[i].waterIntake <= hi
    ensures 0.0 <= SumWater(days) <= |days| as real * hi
    decreases |days|
  {
    if |days| > 0 {
      var init := days[..|days| - 1];
      assert forall i :: 0 <= i < |init| ==> init[i] == days[i];
      SumWaterBounds(init, hi);
      assert |days| as real * hi == |init| as real * hi + hi;
    }
  }

  /** `avg` is the mean of `n` values adding up to `total`: avg · n = total, and 0 when there are none. */
  predicate IsMeanOf(avg: real, total: real, n: nat) {
    (n == 0 ==> avg == 0.0) && (n > 0 ==> avg * n as real == total)
  }

  /** `total / n` for a positive count, 0 for none: the guard both averages of the page apply. */
  function Mean(total: real, n: nat): (avg: real)
    ensures IsMeanOf(avg, total, n)
  {
    if n > 0 then total / n as real else 0.0
  }

  function AvgWater(days: seq<DayData>): (avg: real)
    ensures IsMeanOf(avg, SumWater(days), |days|)
  {
    Mean(SumWater(days), |days|)
  }

  /** With every intake in [0, hi], the mean lies in [0, hi] too. */
  lemma AvgWaterBounds(days: seq<DayData>, hi: real)
    requires 0.0 <= hi
    requires forall i :: 0 <= i < |days| ==> 0.0 <= days[i].waterIntake <= hi
    ensures 0.0 <= AvgWater(days) <= hi
  {
    if |days| > 0 {
      SumWaterBounds(days, hi);
      assert AvgWater(days) == SumWater(days) / |days| as real;
      assert |days| as real * 0.0 == 0.0;
      MeanBounds(SumWater(days), |days| as real, 0.0, hi);
    }
  }

  /** A total of `n` values each in [lo, hi], divided by `n`, lies in [lo, hi]. */
  lemma MeanBounds(s: real, n: real, lo: real, hi: real)
    requires n > 0.0 && n * lo <= s <= n * hi
    ensures lo <= s / n <= hi
  {
    var a := s / n;
    assert a * n == s;
    assert (a - hi) * n == s - hi * n;
    assert (a - lo) * n == s - lo * n;
  }

  /** A day counts for the rating average when it has been rated. */
  function IsRated(d: DayData): bool {
    d.dayRating > 0
  }

  function SumRatings(days: seq<DayData>): int
    decreases |days|
  {
    if |days| == 0 then 0 else SumRatings(days[..|days| - 1]) + days[|days| - 1].dayRating
  }

  /** The mean rating over the rated days only; 0 when no day is rated. */
  function AvgRating(days: seq<DayData>): (avg: real)
    ensures (forall d :: d in days ==> !IsRated(d)) ==> avg == 0.0
    ensures var rated := Filter(days, IsRated); IsMeanOf(avg, SumRatings(rated) as real, |rated|)
  {
    var rated := Filter(days, IsRated);
    assert |rated| > 0 ==> rated[0] in rated;
    MeanRating(rated)
  }

  /** The mean rating of a list of days: the rating sum over the count, 0 for no days. */
  function MeanRating(days: seq<DayData>): (avg: real)
    ensures IsMeanOf(avg, SumRatings(days) as real, |days|)
  {
    Mean(SumRatings(days) as real, |days|)
  }

  /** Unrated days never change the rating average: it is the average over the rated days alone. */
  lemma {:induction false} UnratedDaysIgnored(days: seq<DayData>)
    ensures AvgRating(days) == AvgRating(Filter(days, IsRated))
  {
    FilterIdempotent(days, IsRated);
  }

  /** Appending an unrated day leaves the average as it was. */
  lemma {:induction false} AppendUnratedKeepsAverage(days: seq<DayData>, d: DayData)
    requires !IsRated(d)
    ensures AvgRating(days + [d]) == AvgRating(days)
  {
    FilterConcat(days, [d], IsRated);
    assert Filter([d], IsRated) == [];
    assert Filter(days + [d], IsRated) == Filter(days, IsRated);
  }

  /** Ratings of at most 5 add up to at most 5 per day; rated days add at least 1 each. */
  lemma {:induction false} SumRatingsBounds(days: seq<DayData>)
    requires forall i :: 0 <= i < |days| ==> 1 <= days[i].dayRating <= 5
    ensures |days| <= SumRatings(days) <= 5 * |days|
    decreases |days|
  {
    if |days| > 0 {
      var init := days[..|days| - 1];
      assert forall i :: 0 <= i < |init| ==> init[i] == days[i];
      SumRatingsBounds(init);
    }
  }

  /** With ratings on the 0..5 scale, the average is 0 or lies between 1 and 5. */
  lemma AvgRatingBounds(days: seq<DayData>)
    requires forall d :: d in days ==> IsRating(d.dayRating)
    ensures AvgRating(days) == 0.0 || 1.0 <= AvgRating(days) <= 5.0
  {
    var rated := Filter(days, IsRated);
    if |rated| > 0 {
      assert forall i :: 0 <= i < |rated| ==> rated[i] in rated;
      SumRatingsBounds(rated);
      MeanBounds(SumRatings(rated) as real, |rated| as real, 1.0, 5.0);
    }
  }

  /** Four days rated 0, 3, 0 and 5 average 4: the two unrated days do not count. */
  lemma AvgRatingExample(a: DayData, b: DayData, c: DayData, d: DayData)
    requires a.dayRating == 0 && b.dayRating == 3 && c.dayRating == 0 && d.dayRating == 5
    ensures AvgRating([a, b, c, d]) == 4.0
  {
    assert [a, b, c, d][1..] == [b, c, d];
    assert [b, c, d][1..] == [c, d];
    assert [c, d][1..] == [d];
    assert [d][1..] == [];
    assert Filter([d], IsRated) == [d];
    assert Filter([c, d], IsRated) == [d];
    assert Filter([b, c, d], IsRated) == [b, d];
    assert Filter([a, b, c, d], IsRated) == [b, d];
    assert [b, d][..1] == [b];
    assert [b][..0] == [];
    assert SumRatings([b]) == 3;
    assert SumRatings([b, d]) == 8;
  }

  // ---------------------------------------------------------------------------
  // getLast7Days
  // ---------------------------------------------------------------------------

  /** One day of the strip: its day number, its ISO date text and the first record with that text. */
  datatype StripDay = StripDay(day: int, date: string, data: Option<DayData>)

  /** Seven consecutive days from `first`, each with the first record of its date. */
  function Strip(days: seq<DayData>, first: int): (r: seq<StripDay>)
    ensures |r| == 7
    ensures forall i :: 0 <= i < 7 ==> r[i] == StripCell(days, first + i)
  {
    seq(7, i => StripCell(days, first + i))
  }

  /** The strip entry of day `n`: the day, its ISO text and the first record with that text. */
  function StripCell(days: seq<DayData>, n: int): (c: StripDay)
    ensures c.day == n && c.date == Iso(n) && c.data == FirstWithDate(days, c.date)
  {
    var text := Iso(n);
    StripDay(n, text, FirstWithDate(days, text))
  }

  /** The seven days ending today, oldest first, each with the first record of its date. */
  function Last7Days(days: seq<DayData>, now: int): (r: seq<StripDay>)
    ensures |r| == 7
    ensures forall i :: 0 <= i < 7 ==> r[i] == StripCell(days, Today(now) - 6 + i)
  {
    Strip(days, Today(now) - 6)
  }

  /** The strip runs over consecutive days and ends with today. */
  lemma Last7DaysConsecutive(days: seq<DayData>, now: int)
    ensures Last7Days(days, now)[6].day == Today(now)
    ensures forall i :: 0 <= i < 6 ==> Last7Days(days, now)[i + 1].day == Last7Days(days, now)[i].day + 1
  {
  }

  /** A strip day shows a record of the list with its own date, and shows none only when the list has no such record. */
  lemma Last7DaysData(days: seq<DayData>, now: int, i: int)
    requires 0 <= i < 7
    ensures var s := Last7Days(days, now)[i];
            && (s.data.Some? ==> s.data.value in days && Iso(s.data.value.date) == s.date)
            && (s.data.None? <==> forall d :: d in days ==> Iso(d.date) != s.date)
  {
  }

  /** The figures under each strip day: completed and total tasks and whether the water goal was met, all zero without a record. */
  function StripFigures(s: StripDay): (r: (nat, nat, bool))
    ensures r.0 <= r.1
    ensures s.data.None? ==> r == (0, 0, false)
    ensures s.data.Some? ==> r.1 == |s.data.value.todos| && (r.2 <==> s.data.value.waterIntake >= s.data.value.waterGoal)
    ensures s.data.Some? ==> r.0 == CompletedCount(s.data.value.todos)
  {
    var ind := GetDayIndicators(s.data);
    (ind.completedTasks, ind.totalTasks, ind.waterGoalMet)
  }
}

=== FILE: storage.dfy ===
/**
 The day-record store behind the `useStorage` hook (browser and mobile
 variants; the mobile one only adds `await` at the backend calls).

 The key-value backend is a map from key to entry; an entry either parses as a
 day record or is corrupt (reading or parsing it throws). A write to the
 backend may fail; that outcome is the `writeOk` parameter. The hook's own state
 is whether it is still loading and the record currently shown.
 */
module Storage {
  import opened Wrappers
  import opened Calendar
  import opened Planner
  import opened Sequences

  /** Every day record lives under a key with this prefix. */
  const DayPrefix: string := "day-"

  /** The backend key of the record of day `date`: `day-YYYY-MM-DD`. */
  function KeyOf(date: int): string {
    DayPrefix + Iso(date)
  }

  /** `key.startsWith('day-')`. */
  predicate IsDayKey(k: string) {
    |DayPrefix| <= |k| && k[..|DayPrefix|] == DayPrefix
  }

  datatype Entry = Valid(record: DayData) | Corrupt

  type Backend = map<string, Entry>

  /** The hook's state: `loading` and `currentDayData`. */
  datatype Hook = Hook(loading: bool, current: Option<DayData>)

  /** The backend together with the hook's state. */
  datatype Session = Session(store: Backend, hook: Hook)

  /**
   Every day key that holds a parsable record holds the record of the day it
   names, and that record is well-formed. The store maintains this for the
   records it writes itself.
   */
  predicate Consistent(store: Backend) {
    forall k :: k in store && IsDayKey(k) && store[k].Valid? ==>
      k == KeyOf(store[k].record.date) && WellFormed(store[k].record)
  }

  // ---------------------------------------------------------------------------
  // createDefaultDayData, loadDayData, saveDayData
  // ---------------------------------------------------------------------------

  /**
   The record of a day nothing was stored for: keyed and identified by its
   date, one empty slot per hour, no tasks or money, no water drunk out of a
   goal of 8 litres, not rated and nothing written.
   */
  function DefaultDayData(date: int): (r: DayData)
    ensures r.date == date && WellFormed(r)
    ensures forall h :: 0 <= h < HoursPerDay ==> r.timeSlots[h] == TimeSlot(h, "")
    ensures r.todos == [] && r.moneyEntries == []
    ensures r.waterIntake == 0.0 && r.waterGoal == 8.0 && r.exerciseHours == 0.0
    ensures r.dayRating == 0 && r.highlight == ""
    ensures r.mealPlan == MealPlan("", "", "", "")
  {
    DayData(
      KeyOf(date), date, [], seq(HoursPerDay, i => TimeSlot(i, "")), [],
      0.0, 8.0, 0.0, MealPlan("", "", "", ""), 0, "")
  }

  /**
   The record of day `date`: the stored one when its key holds a parsable
   entry, the default record when the key is missing or its entry is corrupt.
   Loading never fails.
   */
  function Load(store: Backend, date: int): (r: DayData)
    ensures KeyOf(date) in store && store[KeyOf(date)].Valid? ==> r == store[KeyOf(date)].record
    ensures !(KeyOf(date) in store && store[KeyOf(date)].Valid?) ==> r == DefaultDayData(date)
    ensures Consistent(store) ==> WellFormed(r) && KeyOf(r.date) == KeyOf(date)
  {
    var key := KeyOf(date);
    if key in store && store[key].Valid? then store[key].record else DefaultDayData(date)
  }

  /**
   Writes `r` under the key of its date and makes it the current record. When
   the write fails, neither the backend nor the hook changes.
   */
  function Save(s: Session, r: DayData, writeOk: bool): (s': Session)
    ensures writeOk ==> Load(s'.store, r.date) == r
    ensures writeOk ==> s'.hook == Hook(s.hook.loading, Some(r))
    ensures writeOk ==> forall k :: k != KeyOf(r.date) ==>
                          (k in s'.store <==> k in s.store) && (k in s.store ==> s'.store[k] == s.store[k])
    ensures writeOk ==> forall d :: KeyOf(d) != KeyOf(r.date) ==> Load(s'.store, d) == Load(s.store, d)
    ensures !writeOk ==> s' == s
  {
    if writeOk then Session(s.store[KeyOf(r.date) := Valid(r)], s.hook.(current := Some(r))) else s
  }

  /** Saving a well-formed record keeps every day key holding the record of its own day. */
  lemma SaveKeepsConsistent(s: Session, r: DayData, writeOk: bool)
    requires Consistent(s.store) && WellFormed(r)
    ensures Consistent(Save(s, r, writeOk).store)
  {
  }

  // ---------------------------------------------------------------------------
  // updateTodos, updateTimeSlots, ..., updateHighlight
  // ---------------------------------------------------------------------------

  /** The new value of one field, one alternative per `update*` function of the hook. */
  datatype Field =
    | Todos(todos: seq<TodoItem>)
    | TimeSlots(timeSlots: seq<TimeSlot>)
    | MoneyEntries(moneyEntries: seq<MoneyEntry>)
    | WaterIntake(waterIntake: real)
    | ExerciseHours(exerciseHours: real)
    | Meals(mealPlan: MealPlan)
    | Rating(dayRating: int)
    | Highlight(highlight: string)

  /**
   `r2` is `r` with the field named by `f` set to `f`'s value and every other
   field as it was.
   */
  predicate ChangesOnly(r: DayData, r2: DayData, f: Field) {
    && r2.id == r.id
    && r2.date == r.date
    && r2.todos == (if f.Todos? then f.todos else r.todos)
    && r2.timeSlots == (if f.TimeSlots? then f.timeSlots else r.timeSlots)
    && r2.moneyEntries == (if f.MoneyEntries? then f.moneyEntries else r.moneyEntries)
    && r2.waterIntake == (if f.WaterIntake? then f.waterIntake else r.waterIntake)
    && r2.waterGoal == r.waterGoal
    && r2.exerciseHours == (if f.ExerciseHours? then f.exerciseHours else r.exerciseHours)
    && r2.mealPlan == (if f.Meals? then f.mealPlan else r.mealPlan)
    && r2.dayRating == (if f.Rating? then f.dayRating else r.dayRating)
    && r2.highlight == (if f.Highlight? then f.highlight else r.highlight)
  }

  /** `{ ...currentDayData, field }`. */
  function WithField(r: DayData, f: Field): (r2: DayData)
    ensures ChangesOnly(r, r2, f)
  {
    match f
    case Todos(v) => r.(todos := v)
    case TimeSlots(v) => r.(timeSlots := v)
    case MoneyEntries(v) => r.(moneyEntries := v)
    case WaterIntake(v) => r.(waterIntake := v)
    case ExerciseHours(v) => r.(exerciseHours := v)
    case Meals(v) => r.(mealPlan := v)
    case Rating(v) => r.(dayRating := v)
    case Highlight(v) => r.(highlight := v)
  }

  /** A one-field change is determined by the field: `ChangesOnly` admits exactly one result. */
  lemma ChangesOnlyIsWithField(r: DayData, r2: DayData, f: Field)
    ensures ChangesOnly(r, r2, f) <==> r2 == WithField(r, f)
  {
  }

  /** The values a field update may carry without breaking `WellFormed`. */
  predicate KeepsWellFormed(f: Field) {
    match f
    case TimeSlots(v) => FullDay(v)
    case WaterIntake(v) => v >= 0.0
    case Rating(v) => IsRating(v)
    case _ => true
  }

  /**
   One `update*` call: nothing happens while there is no current record;
   otherwise the current record with only that field replaced is saved. The
   rating buttons only ever pass 1..5.
   */
  function Update(s: Session, f: Field, writeOk: bool): (s': Session)
    requires f.Rating? ==> 1 <= f.dayRating <= 5
    ensures s.hook.current.None? ==> s' == s
    ensures !writeOk ==> s' == s
    ensures s.hook.current.Some? && writeOk ==>
              && s'.hook.current.Some?
              && ChangesOnly(s.hook.current.value, s'.hook.current.value, f)
              && Load(s'.store, s.hook.current.value.date) == s'.hook.current.value
              && s'.hook.loading == s.hook.loading
    ensures s.hook.current.Some? && writeOk ==>
              forall k :: k != KeyOf(s.hook.current.value.date) ==>
                (k in s'.store <==> k in s.store) && (k in s.store ==> s'.store[k] == s.store[k])
  {
    match s.hook.current
    case None => s
    case Some(c) => Save(s, WithField(c, f), writeOk)
  }

  // ---------------------------------------------------------------------------
  // The hook's lifecycle
  // ---------------------------------------------------------------------------

  /** The hook before its effect has run: loading, with no current record. */
  function Initial(store: Backend): Session {
    Session(store, Hook(true, None))
  }

  /** The effect run at mount: load today's record and stop loading. */
  function Init(store: Backend, today: int): (s: Session)
    ensures s.store == store && !s.hook.loading
    ensures s.hook.current == Some(Load(store, today))
    ensures Consistent(store) ==> KeyOf(s.hook.current.value.date) == KeyOf(today)
  {
    Session(store, Hook(false, Some(Load(store, today))))
  }

  /** While loading, no update changes anything. */
  lemma UpdateWhileLoading(store: Backend, f: Field, writeOk: bool)
    requires f.Rating? ==> 1 <= f.dayRating <= 5
    ensures Update(Initial(store), f, writeOk) == Initial(store)
  {
  }

  /** The current record is what loading its own day returns. */
  predicate Synced(s: Session) {
    s.hook.current.Some? ==> Load(s.store, s.hook.current.value.date) == s.hook.current.value
  }

  /** The invariant of a running session. */
  predicate SessionOk(s: Session) {
    && Consistent(s.store)
    && Synced(s)
    && (s.hook.current.Some? ==> WellFormed(s.hook.current.value))
  }

  /** Initialisation over a consistent backend yields a running session. */
  lemma InitSessionOk(store: Backend, today: int)
    requires Consistent(store)
    ensures SessionOk(Init(store, today))
  {
  }

  /** An update that keeps records well-formed keeps the session invariant. */
  lemma UpdateKeepsSessionOk(s: Session, f: Field, writeOk: bool)
    requires SessionOk(s) && KeepsWellFormed(f)
    requires f.Rating? ==> 1 <= f.dayRating <= 5
    ensures SessionOk(Update(s, f, writeOk))
  {
    if s.hook.current.Some? && writeOk {
      SaveKeepsConsistent(s, WithField(s.hook.current.value, f), writeOk);
    }
  }

  /** One user edit: the field it changes and whether the backend write succeeds. */
  datatype Edit = Edit(field: Field, writeOk: bool)

  predicate Allowed(e: Edit) {
    e.field.Rating? ==> 1 <= e.field.dayRating <= 5
  }

  /** A sequence of edits applied one after another. */
  function Run(s: Session, edits: seq<Edit>): Session
    requires forall i :: 0 <= i < |edits| ==> Allowed(edits[i])
    decreases |edits|
  {
    if |edits| == 0 then s
    else
      assert Allowed(edits[0]);
      Run(Update(s, edits[0].field, edits[0].writeOk), edits[1..])
  }

  /** The record `r` after the edits whose writes succeed. */
  function ApplyWritten(r: DayData, edits: seq<Edit>): DayData
    decreases |edits|
  {
    if |edits| == 0 then r
    else ApplyWritten(if edits[0].writeOk then WithField(r, edits[0].field) else r, edits[1..])
  }

  /**
   After any sequence of edits starting from a synced current record, loading
   that record's day returns exactly the current record, which is the original
   with every successfully written field change applied in order.
   */
  lemma {:induction false} RunPersistsEdits(s: Session, edits: seq<Edit>)
    requires forall i :: 0 <= i < |edits| ==> Allowed(edits[i])
    requires s.hook.current.Some? && Synced(s)
    ensures var s' := Run(s, edits);
            var c := s.hook.current.value;
            && s'.hook.current == Some(ApplyWritten(c, edits))
            && Load(s'.store, c.date) == ApplyWritten(c, edits)
    decreases |edits|
  {
    if |edits| > 0 {
      var next := Update(s, edits[0].field, edits[0].writeOk);
      assert next.hook.current.Some? && Synced(next);
      RunPersistsEdits(next, edits[1..]);
    }
  }

  /** Edits that keep records well-formed keep the session invariant, however many there are. */
  lemma {:induction false} RunKeepsSessionOk(s: Session, edits: seq<Edit>)
    requires forall i :: 0 <= i < |edits| ==> Allowed(edits[i]) && KeepsWellFormed(edits[i].field)
    requires SessionOk(s)
    ensures SessionOk(Run(s, edits))
    decreases |edits|
  {
    if |edits| > 0 {
      UpdateKeepsSessionOk(s, edits[0].field, edits[0].writeOk);
      RunKeepsSessionOk(Update(s, edits[0].field, edits[0].writeOk), edits[1..]);
    }
  }

  // ---------------------------------------------------------------------------
  // getAllDayData
  // ---------------------------------------------------------------------------

  /** `keys` lists every key of the backend exactly once (`Object.keys` / `getAllKeys`). */
  ghost predicate Enumerates(keys: seq<string>, store: Backend) {
    && (forall k :: k in keys <==> k in store)
    && (forall i, j :: 0 <= i < j < |keys| ==> keys[i] != keys[j])
  }

  /** The keys of the backend that name day records. */
  function DayKeys(store: Backend): set<string> {
    set k | k in store && IsDayKey(k)
  }

  /** Parses the entries under `keys` in order; the first corrupt entry aborts the whole parse. */
  function ParseAll(store: Backend, keys: seq<string>): (r: Option<seq<DayData>>)
    requires forall k :: k in keys ==> k in store
    ensures r.None? <==> exists i :: 0 <= i < |keys| && store[keys[i]].Corrupt?
    ensures r.Some? ==> |r.value| == |keys|
                        && forall i :: 0 <= i < |keys| ==> store[keys[i]] == Valid(r.value[i])
    decreases |keys|
  {
    if |keys| == 0 then Some([])
    else if store[keys[0]].Corrupt? then None
    else
      var rest := ParseAll(store, keys[1..]);
      assert forall i :: 1 <= i < |keys| ==> keys[i] == keys[1..][i - 1];
      if rest.None? then None else Some([store[keys[0]].record] + rest.value)
  }

  predicate SortedByDateDesc(s: seq<DayData>) {
    forall i, j :: 0 <= i < j < |s| ==> s[i].date >= s[j].date
  }

  /** Inserts `x` into a date-descending list, before the records of the same date. */
  function InsertByDate(x: DayData, s: seq<DayData>): (r: seq<DayData>)
    ensures multiset(r) == multiset(s) + multiset{x}
    decreases |s|
  {
    if |s| == 0 || s[0].date <= x.date then [x] + s
    else
      assert s == [s[0]] + s[1..];
      [s[0]] + InsertByDate(x, s[1..])
  }

  /** Inserting into a date-descending list keeps it date-descending; the new head is `x` or the old head. */
  lemma {:induction false} InsertKeepsSorted(x: DayData, s: seq<DayData>)
    requires SortedByDateDesc(s)
    ensures SortedByDateDesc(InsertByDate(x, s))
    ensures var r := InsertByDate(x, s); |r| > 0 && (r[0] == x || (|s| > 0 && r[0] == s[0]))
    decreases |s|
  {
    if |s| > 0 && s[0].date > x.date {
      var rest := InsertByDate(x, s[1..]);
      InsertKeepsSorted(x, s[1..]);
      assert rest[0].date <= s[0].date;
      var r := [s[0]] + rest;
      forall i, j | 0 <= i < j < |r|
        ensures r[i].date >= r[j].date
      {
        if i == 0 {
          assert r[j].date <= rest[0].date;
        } else {
          assert r[i] == rest[i - 1] && r[j] == rest[j - 1];
        }
      }
    }
  }

  /**
   `.sort((a, b) => b.date - a.date)`: the same records, latest day first;
   records of the same day keep their relative order.
   */
  function SortByDateDesc(s: seq<DayData>): (r: seq<DayData>)
    ensures SortedByDateDesc(r)
    ensures multiset(r) == multiset(s)
    decreases |s|
  {
    if |s| == 0 then []
    else
      assert s == [s[0]] + s[1..];
      InsertKeepsSorted(s[0], SortByDateDesc(s[1..]));
      InsertByDate(s[0], SortByDateDesc(s[1..]))
  }

  /** Each day key is listed once, so the filtered key list is as long as the set of day keys. */
  lemma DayKeyCount(store: Backend, keys: seq<string>)
    requires Enumerates(keys, store)
    ensures |Filter(keys, IsDayKey)| == |DayKeys(store)|
  {
    FilterCountSet(keys, IsDayKey, DayKeys(store));
  }

  /** A day key is among the filtered keys, at some position. */
  lemma DayKeyPosition(store: Backend, keys: seq<string>, k: string) returns (i: nat)
    requires Enumerates(keys, store)
    requires k in store && IsDayKey(k)
    ensures i < |Filter(keys, IsDayKey)| && Filter(keys, IsDayKey)[i] == k
  {
    var dayKeys := Filter(keys, IsDayKey);
    assert k in dayKeys;
    i :| 0 <= i < |dayKeys| && dayKeys[i] == k;
  }

  /**
   A parse of the day keys succeeds only when no day entry is corrupt, and then
   yields one record per day key: exactly the stored day records.
   */
  lemma ParsedDayRecords(store: Backend, keys: seq<string>, records: seq<DayData>)
    requires Enumerates(keys, store)
    requires ParseAll(store, Filter(keys, IsDayKey)) == Some(records)
    ensures forall k :: k in store && IsDayKey(k) ==> store[k].Valid?
    ensures |records| == |DayKeys(store)|
    ensures forall x :: x in records <==> exists k :: k in store && IsDayKey(k) && store[k] == Valid(x)
  {
    var dayKeys := Filter(keys, IsDayKey);
    DayKeyCount(store, keys);
    forall k | k in store && IsDayKey(k) ensures store[k].Valid? {
      var i := DayKeyPosition(store, keys, k);
    }
    forall x ensures x in records <==> exists k :: k in store && IsDayKey(k) && store[k] == Valid(x) {
      if x in records {
        var i :| 0 <= i < |records| && records[i] == x;
        var k := dayKeys[i];
        assert k in dayKeys;
        assert k in store && IsDayKey(k) && store[k] == Valid(x);
      }
      if k :| k in store && IsDayKey(k) && store[k] == Valid(x) {
        var i := DayKeyPosition(store, keys, k);
        assert store[dayKeys[i]] == Valid(records[i]);
      }
    }
  }

  /**
   All stored day records, latest day first: only keys with the `day-` prefix
   are read, every one of them exactly once, and if any of them fails to parse
   the result is empty.
   */
  function GetAllDayData(store: Backend, keys: seq<string>): (r: seq<DayData>)
    requires Enumerates(keys, store)
    ensures (exists k :: k in store && IsDayKey(k) && store[k].Corrupt?) ==> r == []
    ensures (forall k :: k in store && IsDayKey(k) ==> store[k].Valid?) ==>
              && SortedByDateDesc(r)
              && |r| == |DayKeys(store)|
              && forall x :: x in r <==> exists k :: k in store && IsDayKey(k) && store[k] == Valid(x)
  {
    match ParseAll(store, Filter(keys, IsDayKey))
    case None =>
      []
    case Some(records) =>
      var r := SortByDateDesc(records);
      assert forall x :: x in r <==> x in records by {
        forall x ensures x in r <==> x in records {
          assert x in r <==> x in multiset(r);
          assert x in records <==> x in multiset(records);
        }
      }
      ParsedDayRecords(store, keys, records);
      r
  }
}

=== FILE: timetracker.dfy ===
/**
 The hourly notes of a day (`TimeTracker`, browser and mobile copies): the
 12-hour clock label, changing the note of an hour, looking up the slot of an
 hour, and the hours the view offers for editing.
 */
module TimeTracker {
  import opened Wrappers
  import opened Calendar
  import opened Planner

  // ---------------------------------------------------------------------------
  // formatHour
  // ---------------------------------------------------------------------------

  /** The hour shown on a 12-hour clock: 0 shows as 12, 13..23 as 1..11. */
  function DisplayHour(hour: int): (d: int)
    ensures 0 <= hour <= 23 ==> 1 <= d <= 12 && d % 12 == hour % 12
  {
    if hour == 0 then 12 else if hour > 12 then hour - 12 else hour
  }

  /** "AM" before noon, "PM" from noon on. */
  function Period(hour: int): string {
    if hour >= 12 then "PM" else "AM"
  }

  /** `formatHour`: the two-digit 12-hour clock hour, ":00 ", and the period. */
  function FormatHour(hour: int): (r: string)
    ensures 0 <= hour <= 23 ==>
              && |r| == 8 && IsDigit(r[0]) && IsDigit(r[1]) && r[2..6] == ":00 "
              && ParseDigits(r[..2]) == DisplayHour(hour)
              && (r[6..] == "PM" <==> hour >= 12)
              && (r[6..] == "AM" <==> hour < 12)
  {
    FormatHourFacts(hour);
    PadTwo(DisplayHour(hour)) + ":00 " + Period(hour)
  }

  lemma FormatHourFacts(hour: int)
    ensures var r := PadTwo(DisplayHour(hour)) + ":00 " + Period(hour);
            0 <= hour <= 23 ==>
              && |r| == 8 && IsDigit(r[0]) && IsDigit(r[1]) && r[2..6] == ":00 "
              && ParseDigits(r[..2]) == DisplayHour(hour)
              && (r[6..] == "PM" <==> hour >= 12)
              && (r[6..] == "AM" <==> hour < 12)
  {
    if 0 <= hour <= 23 {
      var d := PadTwo(DisplayHour(hour));
      PadTwoRoundTrip(DisplayHour(hour));
      var r := d + ":00 " + Period(hour);
      assert r[..2] == d && r[2..6] == ":00 " && r[6..] == Period(hour);
    }
  }

  /** The labels of midnight, noon and the hour after noon. */
  lemma FormatHourExamples()
    ensures FormatHour(0) == "12:00 AM"
    ensures FormatHour(12) == "12:00 PM"
    ensures FormatHour(13) == "01:00 PM"
    ensures FormatHour(9) == "09:00 AM"
  {
    PadTwoDigits(12);
    PadTwoDigits(1);
    PadTwoDigits(9);
  }

  /** Reads an hour of the day back from its label `text`: the inverse of `FormatHour`. */
  function LabelHour(text: string): (r: Option<int>)
    ensures r.Some? ==> 0 <= r.value <= 23
  {
    if |text| == 8 && IsDigit(text[0]) && IsDigit(text[1]) && text[2..6] == ":00 " then
      var d := ParseDigits(text[..2]);
      if 1 <= d <= 12 && text[6..] == "AM" then Some(d % 12)
      else if 1 <= d <= 12 && text[6..] == "PM" then Some(d % 12 + 12)
      else None
    else None
  }

  /** Every hour of the day has its own label: reading the label back gives the hour. */
  lemma LabelRoundTrip(hour: int)
    requires 0 <= hour <= 23
    ensures LabelHour(FormatHour(hour)) == Some(hour)
  {
    var r := FormatHour(hour);
    assert forall i :: 0 <= i < |r[..2]| ==> r[..2][i] == r[i];
  }

  // ---------------------------------------------------------------------------
  // updateActivity, getTimeSlotForHour
  // ---------------------------------------------------------------------------

  /** Sets the note of every slot of this hour; the other slots, and all hours, stay as they are. */
  function UpdateActivity(slots: seq<TimeSlot>, hour: int, activity: string): (r: seq<TimeSlot>)
    ensures |r| == |slots|
    ensures forall i :: 0 <= i < |r| ==> r[i].hour == slots[i].hour
    ensures forall i :: 0 <= i < |r| && slots[i].hour != hour ==> r[i] == slots[i]
    ensures forall i :: 0 <= i < |r| && slots[i].hour == hour ==> r[i].activity == activity
  {
    seq(|slots|, i requires 0 <= i < |slots| =>
      if slots[i].hour == hour then slots[i].(activity := activity) else slots[i])
  }

  /** The slot of an hour: the first slot with that hour, or an empty note for that hour when there is none. */
  function SlotForHour(slots: seq<TimeSlot>, hour: int): (r: TimeSlot)
    ensures r.hour == hour
    ensures (forall i :: 0 <= i < |slots| ==> slots[i].hour != hour) ==> r == TimeSlot(hour, "")
    ensures (exists i :: 0 <= i < |slots| && slots[i].hour == hour) ==>
              exists i :: 0 <= i < |slots| && slots[i] == r
                          && forall j :: 0 <= j < i ==> slots[j].hour != hour
    decreases |slots|
  {
    if |slots| == 0 then TimeSlot(hour, "")
    else if slots[0].hour == hour then slots[0]
    else
      assert forall i :: 1 <= i < |slots| ==> slots[i] == slots[1..][i - 1];
      SlotForHour(slots[1..], hour)
  }

  /** Updating keeps a record's 24 hourly slots in place. */
  lemma UpdateKeepsFullDay(slots: seq<TimeSlot>, hour: int, activity: string)
    requires FullDay(slots)
    ensures FullDay(UpdateActivity(slots, hour, activity))
  {
  }

  /** Updating an hour no slot has is the identity. */
  lemma UpdateAbsentIdentity(slots: seq<TimeSlot>, hour: int, activity: string)
    requires forall i :: 0 <= i < |slots| ==> slots[i].hour != hour
    ensures UpdateActivity(slots, hour, activity) == slots
  {
  }

  /** In a full day, the slot of hour `h` is slot `h`. */
  lemma {:induction false} FullDayLookup(slots: seq<TimeSlot>, hour: int)
    requires FullDay(slots) && 0 <= hour < HoursPerDay
    ensures SlotForHour(slots, hour) == slots[hour]
  {
    var r := SlotForHour(slots, hour);
    assert slots[hour].hour == hour;
    var i :| 0 <= i < |slots| && slots[i] == r && forall j :: 0 <= j < i ==> slots[j].hour != hour;
    assert i == hour;
  }

  /** After an update the lookup of that hour shows the new note; the other hours show what they showed before. */
  lemma {:induction false} LookupAfterUpdate(slots: seq<TimeSlot>, hour: int, activity: string, other: int)
    requires FullDay(slots) && 0 <= hour < HoursPerDay && 0 <= other < HoursPerDay && other != hour
    ensures SlotForHour(UpdateActivity(slots, hour, activity), hour) == TimeSlot(hour, activity)
    ensures SlotForHour(UpdateActivity(slots, hour, activity), other) == SlotForHour(slots, other)
  {
    var r := UpdateActivity(slots, hour, activity);
    UpdateKeepsFullDay(slots, hour, activity);
    FullDayLookup(r, hour);
    FullDayLookup(r, other);
    FullDayLookup(slots, other);
  }

  // ---------------------------------------------------------------------------
  // The hours on screen
  // ---------------------------------------------------------------------------

  /** The hours the view lists for editing, 6 in the morning to 10 in the evening. */
  const KeyHours: seq<int> := [6, 7, 8, 9, 10, 11, 12, 13, 14, 15, 16, 17, 18, 19, 20, 21, 22]

  /** The listed hours are 6..22, each once, in order. */
  lemma KeyHoursAreSixToTwentyTwo()
    ensures |KeyHours| == 17
    ensures forall i :: 0 <= i < |KeyHours| ==> KeyHours[i] == 6 + i
    ensures forall h :: h in KeyHours <==> 6 <= h <= 22
  {
    assert forall i :: 0 <= i < |KeyHours| ==> KeyHours[i] == 6 + i;
    forall h | 6 <= h <= 22
      ensures h in KeyHours
    {
      assert KeyHours[h - 6] == h;
    }
  }

  /** The rows on screen: for each listed hour, its label and its slot. */
  function Rows(slots: seq<TimeSlot>): (r: seq<(string, TimeSlot)>)
    ensures |r| == |KeyHours|
    ensures forall i :: 0 <= i < |r| ==> r[i].0 == FormatHour(KeyHours[i]) && r[i].1.hour == KeyHours[i]
    ensures forall i :: 0 <= i < |r| ==> r[i].1 == SlotForHour(slots, KeyHours[i])
  {
    seq(|KeyHours|, i requires 0 <= i < |KeyHours| => (FormatHour(KeyHours[i]), SlotForHour(slots, KeyHours[i])))
  }

  /** Editing row `i` on screen updates the note of that row's hour. */
  function EditRow(slots: seq<TimeSlot>, i: int, activity: string): seq<TimeSlot>
    requires 0 <= i < |KeyHours|
  {
    UpdateActivity(slots, KeyHours[i], activity)
  }

  /**
   Edits made through the view never touch the notes of the night hours
   (0..5 and 23), though every record keeps slots for them.
   */
  lemma {:induction false} NightHoursUntouched(slots: seq<TimeSlot>, edits: seq<(int, string)>)
    requires forall k :: 0 <= k < |edits| ==> 0 <= edits[k].0 < |KeyHours|
    ensures var r := EditAll(slots, edits);
            |r| == |slots| && forall j :: 0 <= j < |r| && (slots[j].hour < 6 || slots[j].hour > 22) ==> r[j] == slots[j]
    decreases |edits|
  {
    if |edits| > 0 {
      KeyHoursAreSixToTwentyTwo();
      var next := EditRow(slots, edits[0].0, edits[0].1);
      NightHoursUntouched(next, edits[1..]);
    }
  }

  /** A series of edits through the view. */
  function EditAll(slots: seq<TimeSlot>, edits: seq<(int, string)>): seq<TimeSlot>
    requires forall k :: 0 <= k < |edits| ==> 0 <= edits[k].0 < |KeyHours|
    decreases |edits|
  {
    if |edits| == 0 then slots else EditAll(EditRow(slots, edits[0].0, edits[0].1), edits[1..])
  }
}

=== FILE: todos.dfy ===
/**
 The task list of a day (`TodoSection`, browser and mobile copies): adding,
 toggling and deleting tasks, and the split into the top three and the rest.
 New ids come from the clock in the application; here they are parameters.
 */
module TodoList {
  import opened Planner
  import opened Sequences

  // ---------------------------------------------------------------------------
  // String.prototype.trim
  // ---------------------------------------------------------------------------

  /** The white space and line terminators that JavaScript's `trim` removes. */
  predicate IsSpace(c: char) {
    var n := c as int;
    || (9 <= n <= 13) || n == 0x20 || n == 0xA0 || n == 0x1680
    || (0x2000 <= n <= 0x200A) || n == 0x2028 || n == 0x2029
    || n == 0x202F || n == 0x205F || n == 0x3000 || n == 0xFEFF
  }

  /** Nothing but white space (also the empty string): what `!s.trim()` tests. */
  predicate IsBlank(s: string) {
    forall i :: 0 <= i < |s| ==> IsSpace(s[i])
  }

  /** The index of the first character at or after `i` that is not white space (|s| if none). */
  function SkipSpaces(s: string, i: nat): (j: nat)
    requires i <= |s|
    ensures i <= j <= |s|
    ensures forall k :: i <= k < j ==> IsSpace(s[k])
    ensures j < |s| ==> !IsSpace(s[j])
    decreases |s| - i
  {
    if i < |s| && IsSpace(s[i]) then SkipSpaces(s, i + 1) else i
  }
  /** The index just past the last character before `j` that is not white space (`lo` if none). */
  function BackSpaces(s: string, lo: nat, j: nat): (e: nat)
    requires lo <= j <= |s|
    ensures lo <= e <= j
    ensures forall k :: e <= k < j ==> IsSpace(s[k])
    ensures e > lo ==> !IsSpace(s[e - 1])
    decreases j
  {
    if j > lo && IsSpace(s[j - 1]) then BackSpaces(s, lo, j - 1) else j
  }
  /**
   `s.trim()`: the part of `s` between its leading and trailing white space.
   The result is empty exactly when `s` is blank, and otherwise neither starts
   nor ends with white space.
   */
  function Trim(s: string): (r: string)
    ensures var i := SkipSpaces(s, 0);
            i + |r| <= |s| && r == s[i..i + |r|]
            && IsBlank(s[..i]) && IsBlank(s[i + |r|..])
    ensures |r| > 0 ==> !IsSpace(r[0]) && !IsSpace(r[|r| - 1])
    ensures r == [] <==> IsBlank(s)
  {
    var i := SkipSpaces(s, 0);
    var e := BackSpaces(s, i, |s|);
    assert IsBlank(s[..i]) by {
      forall k | 0 <= k < i ensures IsSpace(s[..i][k]) { }
    }
    assert IsBlank(s[e..]) by {
      forall k | 0 <= k < |s| - e ensures IsSpace(s[e..][k]) { assert s[e..][k] == s[e + k]; }
    }
    assert e == i ==> IsBlank(s) by {
      if e == i {
        forall k | 0 <= k < |s| ensures IsSpace(s[k]) { }
      }
    }
    s[i..e]
  }

  // ---------------------------------------------------------------------------
  // addTodo, toggleTodo, deleteTodo
  // ---------------------------------------------------------------------------

  /** Task ids are pairwise different. */
  predicate UniqueIds(todos: seq<TodoItem>) {
    forall i, j :: 0 <= i < j < |todos| ==> todos[i].id != todos[j].id
  }

  /** No task has this id. */
  predicate FreshId(todos: seq<TodoItem>, id: string) {
    forall t :: t in todos ==> t.id != id
  }

  /**
   Adds a task with the trimmed text at the end of the list, not completed,
   with priority one more than the old length. Blank text adds nothing.
   */
  function AddTodo(todos: seq<TodoItem>, text: string, id: string): (r: seq<TodoItem>)
    ensures IsBlank(text) <==> r == todos
    ensures !IsBlank(text) ==> |r| == |todos| + 1 && r[..|todos|] == todos
    ensures !IsBlank(text) ==> r[|todos|] == TodoItem(id, Trim(text), false, |todos| + 1)
  {
    var t := Trim(text);
    if t != "" then todos + [TodoItem(id, t, false, |todos| + 1)] else todos
  }

  /** Flips `completed` of the tasks with this id; nothing else changes. */
  function ToggleTodo(todos: seq<TodoItem>, id: string): (r: seq<TodoItem>)
    ensures |r| == |todos|
    ensures forall i :: 0 <= i < |r| ==>
              && r[i].id == todos[i].id && r[i].text == todos[i].text
              && r[i].priority == todos[i].priority
              && (r[i].completed != todos[i].completed <==> todos[i].id == id)
  {
    seq(|todos|, i requires 0 <= i < |todos| =>
      if todos[i].id == id then todos[i].(completed := !todos[i].completed) else todos[i])
  }

  /** The filter that keeps the items whose id differs from `id`. */
  function IdIsNot(id: string): TodoItem -> bool {
    (t: TodoItem) => t.id != id
  }

  /**
   Removes the tasks with this id. The rest keep their order, ids and
   priorities: nothing is renumbered.
   */
  function DeleteTodo(todos: seq<TodoItem>, id: string): (r: seq<TodoItem>)
    ensures forall t :: t in r <==> t in todos && t.id != id
    ensures IsSubsequence(r, todos)
    ensures FreshId(todos, id) ==> r == todos
    ensures forall t :: Copies(r, t) == if t.id != id then Copies(todos, t) else 0
  {
    FilterIsSubsequence(todos, IdIsNot(id));
    assert forall t :: Copies(Filter(todos, IdIsNot(id)), t) == if t.id != id then Copies(todos, t) else 0 by {
      forall t { FilterCount(todos, IdIsNot(id), t); }
    }
    if FreshId(todos, id) then
      FilterAllKept(todos, IdIsNot(id));
      Filter(todos, IdIsNot(id))
    else
      Filter(todos, IdIsNot(id))
  }

  /** Toggling the same id twice restores the list. */
  lemma ToggleTwice(todos: seq<TodoItem>, id: string)
    ensures ToggleTodo(ToggleTodo(todos, id), id) == todos
  {
    var r := ToggleTodo(ToggleTodo(todos, id), id);
    assert forall i :: 0 <= i < |r| ==> r[i] == todos[i];
  }

  /** Toggling an id no task has changes nothing. */
  lemma ToggleAbsent(todos: seq<TodoItem>, id: string)
    requires FreshId(todos, id)
    ensures ToggleTodo(todos, id) == todos
  {
    var r := ToggleTodo(todos, id);
    assert forall i :: 0 <= i < |r| ==> todos[i] in todos && r[i] == todos[i];
  }

  /** Deleting the task just added under a fresh id undoes the addition. */
  lemma {:induction false} DeleteUndoesAdd(todos: seq<TodoItem>, text: string, id: string)
    requires FreshId(todos, id)
    ensures DeleteTodo(AddTodo(todos, text, id), id) == todos
  {
    if !IsBlank(text) {
      var added := AddTodo(todos, text, id);
      var item := added[|todos|];
      assert added == todos + [item];
      FilterConcat(todos, [item], IdIsNot(id));
      FilterAllKept(todos, IdIsNot(id));
      assert Filter([item], IdIsNot(id)) == [];
    }
  }

  /** Adding under a fresh id keeps ids unique. */
  lemma AddKeepsUniqueIds(todos: seq<TodoItem>, text: string, id: string)
    requires UniqueIds(todos) && FreshId(todos, id)
    ensures UniqueIds(AddTodo(todos, text, id))
  {
    var r := AddTodo(todos, text, id);
    if !IsBlank(text) {
      forall i, j | 0 <= i < j < |r|
        ensures r[i].id != r[j].id
      {
        if j == |todos| {
          assert r[i] == todos[i] && todos[i] in todos;
        } else {
          assert r[i] == todos[i] && r[j] == todos[j];
        }
      }
    }
  }

  // ---------------------------------------------------------------------------
  // The top three and the rest
  // ---------------------------------------------------------------------------

  /** The number of tasks shown under "TODAY'S TOP 3". */
  const TopCount: int := 3

  /** `todos.slice(0, 3)`. */
  function TopTodos(todos: seq<TodoItem>): (r: seq<TodoItem>)
    ensures |r| == if |todos| < TopCount then |todos| else TopCount
    ensures r == todos[..|r|]
  {
    if |todos| < TopCount then todos else todos[..TopCount]
  }

  /** `todos.slice(3)`. */
  function RemainingTodos(todos: seq<TodoItem>): (r: seq<TodoItem>)
    ensures |r| == if |todos| < TopCount then 0 else |todos| - TopCount
  {
    if |todos| < TopCount then [] else todos[TopCount..]
  }

  /** The two lists together are the whole list, in order; the rest is only non-empty behind a full top three. */
  lemma TopAndRemainingSplit(todos: seq<TodoItem>)
    ensures TopTodos(todos) + RemainingTodos(todos) == todos
    ensures |RemainingTodos(todos)| > 0 ==> |TopTodos(todos)| == TopCount
  {
  }

  /** The "Add task" control is shown under the top list only while it holds fewer than three tasks. */
  predicate AddOffered(todos: seq<TodoItem>) {
    |TopTodos(todos)| < TopCount
  }

  /** Adding is offered exactly while the whole list has fewer than three tasks. */
  lemma AddOfferedIffFewerThanThree(todos: seq<TodoItem>)
    ensures AddOffered(todos) <==> |todos| < TopCount
  {
  }

  /** What the user can do with the task list. */
  datatype TodoAction = Add(text: string, newId: string) | Toggle(id: string) | Delete(id: string)

  /** One user action through the controls; "Add" is only reachable while it is offered. */
  function Step(todos: seq<TodoItem>, a: TodoAction): seq<TodoItem> {
    match a
    case Add(text, newId) => if AddOffered(todos) then AddTodo(todos, text, newId) else todos
    case Toggle(id) => ToggleTodo(todos, id)
    case Delete(id) => DeleteTodo(todos, id)
  }

  function Steps(todos: seq<TodoItem>, actions: seq<TodoAction>): seq<TodoItem>
    decreases |actions|
  {
    if |actions| == 0 then todos else Steps(Step(todos, actions[0]), actions[1..])
  }

  /** Deleting never lengthens the list. */
  lemma DeleteNotLonger(todos: seq<TodoItem>, id: string)
    ensures |DeleteTodo(todos, id)| <= |todos|
  {
  }

  /**
   Through the controls the list never holds more than three tasks, and every
   priority ever assigned is 1, 2 or 3.
   */
  lemma {:induction false} StepsKeepAtMostThree(todos: seq<TodoItem>, actions: seq<TodoAction>)
    requires |todos| <= TopCount
    requires forall t :: t in todos ==> 1 <= t.priority <= TopCount
    ensures |Steps(todos, actions)| <= TopCount
    ensures forall t :: t in Steps(todos, actions) ==> 1 <= t.priority <= TopCount
    decreases |actions|
  {
    if |actions| > 0 {
      var a := actions[0];
      var next := Step(todos, a);
      if a.Add? && AddOffered(todos) && !IsBlank(a.text) {
        assert next == todos + [next[|todos|]];
      } else if a.Toggle? {
        forall t | t in next
          ensures 1 <= t.priority <= TopCount
        {
          var i :| 0 <= i < |next| && next[i] == t;
          assert todos[i] in todos;
        }
      }
      StepsKeepAtMostThree(next, actions[1..]);
    }
  }

  // ---------------------------------------------------------------------------
  // Completion counts, shared by the statistics and the history calendar
  // ---------------------------------------------------------------------------

  function IsDone(t: TodoItem): bool {
    t.completed
  }

  /** `todos.filter(t => t.completed).length`: none when nothing is done, all exactly when everything is. */
  function CompletedCount(todos: seq<TodoItem>): (n: nat)
    ensures n <= |todos|
    ensures n == 0 <==> forall t :: t in todos ==> !t.completed
    ensures n == |todos| <==> forall t :: t in todos ==> t.completed
  {
    var done := Filter(todos, IsDone);
    FilterKeepsAllIff(todos, IsDone);
    assert |done| > 0 ==> done[0] in done;
    |done|
  }

  /** Counting the completed tasks of two lists together adds the two counts; with the contract above this fixes the count. */
  lemma {:induction false} CompletedCountConcat(a: seq<TodoItem>, b: seq<TodoItem>)
    ensures CompletedCount(a + b) == CompletedCount(a) + CompletedCount(b)
  {
    FilterConcat(a, b, IsDone);
  }

  /** Two of three tasks done count as two. */
  lemma {:induction false} CompletedCountExample(a: TodoItem, b: TodoItem, c: TodoItem)
    requires a.completed && b.completed && !c.completed
    ensures CompletedCount([a, b, c]) == 2
  {
    CompletedCountConcat([a, b], [c]);
    CompletedCountConcat([a], [b]);
    assert [a, b] + [c] == [a, b, c];
    assert [a] + [b] == [a, b];
  }
}

=== FILE: water.dfy ===
/**
 The water tracker of a day (`WaterTracker`): the two quarter-litre buttons,
 the progress percentage, the goal message and the row of glasses. Litres and
 percentages are exact reals.
 */
module WaterTracker {

  /** The amount one button press adds or removes, in litres. */
  const Quarter: real := 0.25

  /** `Math.max(0, intake + delta)`: the new intake, never below zero. */
  function AdjustWater(intake: real, delta: real): (r: real)
    ensures r >= 0.0 && r >= intake + delta
    ensures r == intake + delta || r == 0.0
    ensures intake + delta >= 0.0 ==> r == intake + delta
  {
    if intake + delta > 0.0 then intake + delta else 0.0
  }

  /** The two buttons of the tracker. */
  datatype Press = Less | More

  /** The only amounts the buttons pass: minus or plus a quarter litre. */
  function Delta(p: Press): (d: real)
    ensures d == Quarter || d == -Quarter
    ensures d > 0.0 <==> p == More
  {
    match p
    case Less => -Quarter
    case More => Quarter
  }

  function PressButton(intake: real, p: Press): real {
    AdjustWater(intake, Delta(p))
  }

  /** "+" then "-" restores any intake that is not negative. */
  lemma MoreThenLessRestores(intake: real)
    requires intake >= 0.0
    ensures PressButton(PressButton(intake, More), Less) == intake
  {
  }

  /** At zero, "-" leaves zero; so "-" then "+" does not restore zero but gives a quarter litre. */
  lemma LessAtZero()
    ensures PressButton(0.0, Less) == 0.0
    ensures PressButton(PressButton(0.0, Less), More) == Quarter
  {
  }

  /** A whole number of quarter litres. */
  predicate OnQuarterGrid(x: real) {
    (x * 4.0).Floor as real == x * 4.0
  }

  /** The intake after a series of presses. */
  function PressAll(intake: real, ps: seq<Press>): real
    decreases |ps|
  {
    if |ps| == 0 then intake else PressAll(PressButton(intake, ps[0]), ps[1..])
  }

  /** One press keeps a non-negative, whole number of quarter litres. */
  lemma PressKeepsGrid(intake: real, p: Press)
    requires intake >= 0.0 && OnQuarterGrid(intake)
    ensures PressButton(intake, p) >= 0.0 && OnQuarterGrid(PressButton(intake, p))
  {
    var n := (intake * 4.0).Floor;
    if p == More {
      assert (intake + Quarter) * 4.0 == (n + 1) as real;
    } else if intake + -Quarter > 0.0 {
      assert (intake - Quarter) * 4.0 == (n - 1) as real;
    }
  }

  /** From a non-negative intake on the quarter grid, any series of presses stays non-negative and on the grid. */
  lemma {:induction false} PressAllKeepsGrid(intake: real, ps: seq<Press>)
    requires intake >= 0.0 && OnQuarterGrid(intake)
    ensures PressAll(intake, ps) >= 0.0 && OnQuarterGrid(PressAll(intake, ps))
    decreases |ps|
  {
    if |ps| > 0 {
      PressKeepsGrid(intake, ps[0]);
      PressAllKeepsGrid(PressButton(intake, ps[0]), ps[1..]);
    }
  }

  // ---------------------------------------------------------------------------
  // Progress
  // ---------------------------------------------------------------------------

  /** `Math.min((intake / goal) * 100, 100)`. */
  function Percentage(intake: real, goal: real): (p: real)
    requires goal > 0.0
    ensures intake >= 0.0 ==> 0.0 <= p
    ensures p <= 100.0
    ensures p == 100.0 <==> intake >= goal
    ensures intake < goal ==> p * goal == intake * 100.0
  {
    var raw := (intake / goal) * 100.0;
    assert raw * goal == intake * 100.0;
    if raw < 100.0 then raw else 100.0
  }

  /** The message "Goal achieved!" is shown when the percentage reaches 100. */
  predicate GoalAchieved(intake: real, goal: real)
    requires goal > 0.0
  {
    Percentage(intake, goal) >= 100.0
  }

  /** The goal message shows exactly when the intake has reached the goal. */
  lemma GoalAchievedIffReached(intake: real, goal: real)
    requires goal > 0.0
    ensures GoalAchieved(intake, goal) <==> intake >= goal
  {
  }

  // ---------------------------------------------------------------------------
  // Glasses
  // ---------------------------------------------------------------------------

  /** `Math.ceil(x)`: the least integer not below `x`. */
  function Ceil(x: real): (c: int)
    ensures (c - 1) as real < x <= c as real
  {
    -((-x).Floor)
  }

  /** `Array.from({ length: Math.ceil(goal * 4) })`: one glass per quarter litre of the goal (none for a length below zero). */
  function GlassCount(goal: real): (n: nat)
    ensures goal > 0.0 ==> n >= 1 && (n - 1) as real < goal * 4.0 <= n as real
  {
    var c := Ceil(goal * 4.0);
    if c < 0 then 0 else c
  }

  /** The glasses, in order; glass `i` is drawn full exactly when `i < intake * 4`. */
  function Glasses(intake: real, goal: real): (g: seq<bool>)
    ensures |g| == GlassCount(goal)
    ensures forall i :: 0 <= i < |g| ==> (g[i] <==> (i as real) < intake * 4.0)
  {
    seq(GlassCount(goal), i => (i as real) < intake * 4.0)
  }

  /** The full glasses come first: the row is some full glasses followed by empty ones. */
  lemma FullGlassesArePrefix(intake: real, goal: real, i: int, j: int)
    requires 0 <= i < j < |Glasses(intake, goal)|
    requires Glasses(intake, goal)[j]
    ensures Glasses(intake, goal)[i]
  {
  }

  /** When the goal is reached every glass is full. */
  lemma GoalReachedFillsAll(intake: real, goal: real)
    requires goal > 0.0 && intake >= goal
    ensures forall i :: 0 <= i < |Glasses(intake, goal)| ==> Glasses(intake, goal)[i]
  {
  }

  /**
   With intake and goal on the quarter grid, as the buttons and the default
   goal keep them, the row is all full exactly when the goal is reached.
   */
  lemma AllFullIffGoalOnGrid(intake: real, goal: real)
    requires goal > 0.0 && OnQuarterGrid(intake) && OnQuarterGrid(goal)
    ensures (forall i :: 0 <= i < |Glasses(intake, goal)| ==> Glasses(intake, goal)[i]) <==> intake >= goal
  {
    var g := Glasses(intake, goal);
    var k := (goal * 4.0).Floor;
    var m := (intake * 4.0).Floor;
    assert -(goal * 4.0) == (-k) as real;
    assert GlassCount(goal) == k;
    if forall i :: 0 <= i < |g| ==> g[i] {
      assert g[k - 1];
      assert ((k - 1) as real) < m as real;
      assert k <= m;
    } else if intake >= goal {
      GoalReachedFillsAll(intake, goal);
    }
  }

  /** Off the grid the converse fails: with a goal of 8 litres, 7.8 litres fill every glass yet the goal is not reached. */
  lemma AllFullBelowGoalOffGrid()
    ensures forall i :: 0 <= i < |Glasses(7.8, 8.0)| ==> Glasses(7.8, 8.0)[i]
    ensures !GoalAchieved(7.8, 8.0)
  {
    assert GlassCount(8.0) == 32;
  }
}

=== FILE: wrappers.dfy ===
/** The optional-value datatype used where the source has `T | null` or `T | undefined`. */
module Wrappers {

  datatype Option<+T> = None | Some(value: T) {

    /** Returns the value in Some, or the given default for None. */
    function GetOr(default: T): T {
      match this
      case Some(v) => v
      case None => default
    }
  }
}
